=== FILE: README.md ===
# Tic-tac-toe on an N×N board: board rules, alpha-beta search and depth policy

This project is a Dafny model of the core of a tic-tac-toe program on a 3×3, 4×4 or
5×5 board. The computer picks its moves by depth-limited adversarial search. The model
has three parts:

- **Board rules** (`GameStatus`). A board object holds:
  - a square grid of numpy 64-bit integer cells, with +1 for X, -1 for O and 0 for empty;
  - whose turn it is;
  - a `winner` field, which `is_terminal` fills in once the game is over.

  `is_terminal` looks for a full line by line sums, which numpy computes in 64-bit
  arithmetic. It scans row i and then column i for each i, then both diagonals, then
  checks for a full board. `get_scores` and
  `get_negamax_scores` read the cached verdict. `get_moves` lists the empty cells in
  row-major order. `get_new_state` copies the grid, marks one cell and passes the turn.
- **Search** (`minimax`, `negamax`). Both are depth-limited fail-soft alpha-beta
  searches. They break ties strictly, keeping the first move that reaches the best
  score, and stop a node's loop as soon as the window closes.
- **Depth policy** (`choose_depth`). This maps the board side and the number of empty
  cells to a search depth.

Modules, one per component:

- `Rules` (rules.dfy): the grid as a value, `seq<seq<int>>`. It defines the shape
  check, the 64-bit wrap-around of numpy's sums, the terminal verdict in the order
  the source computes it, the scores, the move list and the effect of a move.
- `BoardFacts` (board_facts.dfy): what those mean.
  - `get_moves` lists exactly the empty cells, in strict row-major order.
  - A move removes exactly its own cell from that list. This is the search's
    termination measure.
  - A board that is not over has a move.
  - On a board of marks, a reported win belongs to a side that owns a full line, and
    a side that alone owns a line is reported as the winner. When both sides own a
    row or column, the one scanned first decides, and a row or column beats a
    diagonal. When the only owned lines are the two diagonals, which can happen
    only on a 4×4 board, X's win is reported.
  - On a board of other 64-bit values, a wrapped sum can report a win that no line
    holds.
- `GameState` (game_status.dfy): the class `GameStatus`.
  - The grid, the turn and the side are immutable fields; every cell fits in 64 bits.
  - `winner` is the one field that `IsTerminal` updates.
  - `GetMoves` and `IsTerminal` are loops proved against the `Rules` functions.
- `SearchSpec` (search_spec.dfy): `minimax` and `negamax` as pure functions that
  follow the source's loops step for step, including the running window and the early
  `break`. It also gives the unpruned depth-limited minimax and negamax that they are
  measured against.
- `SearchEngine` (search_engine.dfy): `minimax` and `negamax` as recursive methods
  over board objects. Each node calls `IsTerminal`, `GetMoves` and `GetNewState` and
  runs the loop over the moves. Each method is proved to return what the matching
  `SearchSpec` function returns.
- `SearchFacts` (search_facts.dfy): what the search promises.
  - The move is legal and the score is -1, 0 or +1.
  - `negamax` with colour ±1 is `minimax` seen from the side to move: same move, the
    score multiplied by the colour, and the window mirrored.
  - Negamax's fail-soft bounds hold against the unpruned value.
  - With the full window, the result is exactly unpruned minimax.
  - Unpruned minimax returns the first best move.
- `DepthPolicy` (depth_policy.dfy): `choose_depth`, its table written as data, and
  monotonicity.

The search's recursion ends because every child has one empty cell fewer than its
parent. Negative or huge depths are allowed, as in the source.

Three details of the code that the model keeps:

- The constructor raises `ValueError` for a grid of the wrong shape: numpy raises it
  for rows of unequal length (GameStatus_5120.py:11), and the constructor's own
  checks raise it for the rest (GameStatus_5120.py:17-22). numpy raises `OverflowError` for a cell outside the
  signed 64-bit range (GameStatus_5120.py:11). `Rules.BoardError` gives the four
  faults separate names.
- `get_new_state` does not check its move (GameStatus_5120.py:109-117).
  `GetNewState` requires the move to be inside the board.
- `negamax` scores its leaves with `get_scores` (multiAgent.py:63), which gives ±1.
  `get_negamax_scores` gives ±100, and its docstring (GameStatus_5120.py:84-87)
  offers it for negamax, but no search calls it. Negamax's scores are therefore on
  the same scale as minimax's.

## Model

| member | source | states |
|---|---|---|
| Rules.CheckShape | GameStatus_5120.py:11-22 | The grid is accepted exactly when it is square with side 3, 4 or 5 and every cell fits in a signed 64-bit integer; the side is then its number of rows. An empty list is refused as not square. A grid whose rows all have the same length is refused with `Overflow` exactly when some cell does not fit in 64 bits. |
| Rules.Wrap64 | GameStatus_5120.py:43-55 | The 64-bit wrap-around of numpy's sums: the result is a signed 64-bit value that differs from the exact value by a multiple of 2^64, and a value already in range is kept. |
| Rules.Zeros | GameStatus_5120.py:8-9 | The default board is n×n and every cell is 0. |
| Rules.Score | GameStatus_5120.py:68-80 | The score is 1 exactly for a win of X, -1 exactly for a win of O, and otherwise 0. |
| Rules.NegamaxScore | GameStatus_5120.py:83-93 | The negamax score is the same verdict on the scale of 100. |
| Rules.LinesVerdict | GameStatus_5120.py:41-51 | The row/column scan from row and column `from` onward, falling through to `DiagVerdict`. Any verdict is -1, 0 or +1, and a draw is reported only on a board with no 0. Its meaning on a board of marks is `BoardFacts.LinesVerdictMeaning`. |
| Rules.DiagVerdict | GameStatus_5120.py:53-63 | The diagonal test, then the draw test. Any verdict is -1, 0 or +1, and a draw is reported only on a board with no 0. Its meaning on a board of marks is `BoardFacts.DiagVerdictMeaning`. |
| Rules.Outcome | GameStatus_5120.py:41-65 | What `is_terminal` decides: None while the game goes on, otherwise -1, 0 or +1, with a draw only on a board with no 0. Its meaning on a board of marks is `BoardFacts.OutcomeMeaning`; `BoardFacts.WrappedRowSumWins` shows a board of other 64-bit values where it reports a win nobody holds. |
| Rules.RowMoves | GameStatus_5120.py:103-105 | The empty cells among the first c cells of a row, at most c of them. Which cells they are, and their column order, is stated by `BoardFacts.RowMovesMembers` and `BoardFacts.RowMovesOrder`. |
| Rules.MovesUpTo | GameStatus_5120.py:102-105 | The empty cells of the first r rows, at most r·n of them. Which cells they are is `BoardFacts.MovesUpToMembers`. |
| Rules.Moves | GameStatus_5120.py:96-106 | `get_moves`' list, at most n·n long. Its members are exactly the empty cells (`BoardFacts.MovesAreEmptyCells`), in strict row-major order (`BoardFacts.MovesInRowMajorOrder`). |
| Rules.Mark | GameStatus_5120.py:116 | The mark of the side to move is -1 exactly on O's turn and +1 otherwise. |
| Rules.Apply | GameStatus_5120.py:114-116 | The new grid is square with the same side. The played cell holds -1 on O's turn and +1 otherwise. Every other cell is unchanged. |
| GameState.GameStatus.Init | GameStatus_5120.py:6-25 | A checked grid gives a valid object with that grid, that turn, its side recorded, and no winner cached. |
| GameState.GameStatus.New | GameStatus_5120.py:6-25 | Construction succeeds exactly when no grid is given or the shape check passes. Otherwise it returns that check's error. With no grid, the board is 3×3 zeros. The new object has no cached winner and records the side. |
| GameState.GameStatus.IsTerminal | GameStatus_5120.py:28-65 | Returns true exactly when the game is over. Then `winner` holds the verdict of the row/column/diagonal/draw scan. Otherwise `winner` keeps its old value. |
| GameState.GameStatus.GetScores | GameStatus_5120.py:68-80 | The score of the cached `winner`: 1, -1, or 0 for a draw or no verdict. |
| GameState.GameStatus.GetNegamaxScores | GameStatus_5120.py:83-93 | 100 times the score of the cached `winner`. |
| GameState.GameStatus.GetMoves | GameStatus_5120.py:96-106 | The nested loops return the row-major list of empty cells, `Moves(board, n)`. |
| GameState.GameStatus.GetNewState | GameStatus_5120.py:109-117 | Returns a fresh valid object. Its grid is the parent's with the move played, the turn is flipped, the side is the same and no winner is cached. The parent is not changed. |
| BoardFacts.MovesAreEmptyCells | GameStatus_5120.py:96-106 | A coordinate is in the move list exactly when it is an empty cell of the board. |
| BoardFacts.MovesInRowMajorOrder | GameStatus_5120.py:96-106 | The move list is in strict row-major order, so it has no repeats. |
| BoardFacts.MovesUpToMembers | GameStatus_5120.py:102-105 | After r rows, the list holds exactly the empty cells of those rows. |
| BoardFacts.ApplyRemovesMove | GameStatus_5120.py:114-117 | After an empty cell is played, the child's move list is the parent's minus that cell and is one shorter. |
| BoardFacts.FewerMovesAfter | GameStatus_5120.py:114-116 | The child has fewer empty cells than the parent. This is the measure that ends the search's recursion. |
| BoardFacts.NotOverHasMoves | GameStatus_5120.py:60-65 | If `is_terminal`'s verdict is "not over", the board has a 0 and `get_moves` is non-empty. |
| BoardFacts.SumOfMarks | GameStatus_5120.py:43-50 | On a line of marks the sum is at most the length in absolute value. It equals +length (-length) exactly when every cell is X (O). |
| BoardFacts.LinesVerdictStep | GameStatus_5120.py:42-51 | (proof helper) One step of the row/column scan on a board of marks: a full row i, then a full column i, decides the verdict; otherwise the scan goes on. |
| BoardFacts.LinesVerdictMeaning | GameStatus_5120.py:41-58 | On a board of marks with side at most 5: the row/column scan reports a side's win only when that side owns a row or a column, or the diagonal test reports that win. When either side owns a row or column, the scan reports a win. When only one side does, the win is that side's. With no owned row or column, the diagonal and draw verdict stands. |
| BoardFacts.LinesVerdictMeaningStep | GameStatus_5120.py:42-51 | (proof helper) On a board of marks with side at most 5, the meaning of the scan from row i+1 carries over to the scan from row i. |
| BoardFacts.DiagVerdictMeaning | GameStatus_5120.py:53-63 | On a board of marks with side at most 5: the diagonal test reports +1 or -1 only for a side owning a diagonal, and one of them when a diagonal is owned. When X owns a diagonal, X's win is reported, even if O owns the other one. Otherwise the board is a draw when full and not over when it has a 0. |
| BoardFacts.OutcomeMeaning | GameStatus_5120.py:41-65 | On a board of marks with side at most 5: a reported win belongs to a side with a full line. A draw is reported exactly when neither side has a line and no cell is empty. "Not over" is reported exactly when neither side has a line and a cell is empty. A line of one side alone gives that side's win. |
| BoardFacts.DiagonalsFavourX | GameStatus_5120.py:41-58 | On a board of marks with side at most 5, when neither side owns a row or column and X owns a diagonal, X's win is reported, whatever O holds. |
| BoardFacts.WrappedRowSumWins | GameStatus_5120.py:11-45 | The board with rows (2^63-1, 2^63-1, 5), (0, 0, 0), (0, 0, 0) passes the shape check, and `is_terminal` reports a win for X on it although X owns no line: the first row's sum wraps from 2^64+3 to 3. |
| BoardFacts.DiagonalTieBoard | GameStatus_5120.py:42-58 | (proof helper) The 4×4 board used below is a board of marks: O owns the main diagonal, X the anti-diagonal, and every row and column holds a 0. |
| BoardFacts.DiagonalTieGoesToX | GameStatus_5120.py:53-58 | On the 4×4 board whose main diagonal is O's and whose anti-diagonal is X's, with no row or column owned, `is_terminal` reports X's win, although the main diagonal is tested first. |
| SearchSpec.MovesAllEmpty | GameStatus_5120.py:96-106 | Every entry of `get_moves` is an empty cell inside the board. |
| SearchSpec.Max | multiAgent.py:33 | Python's `max(alpha, eval)` on the extended integers; no contract of its own. It keeps its first argument on a tie, and its use in the loops is stated by `SearchFacts.NegaScanIsMaxScan` and `SearchFacts.MinStepNegated`. |
| SearchSpec.Min | multiAgent.py:48 | Python's `min(beta, eval)`; no contract of its own. `SearchFacts.MinStepNegated` states that it is `Max` on the negated scale. |
| SearchSpec.Minimax | multiAgent.py:13-52 | `minimax` as a function: a returned move is one of `get_moves`. What the score and move mean is stated by `SearchFacts.MinimaxResultLegal`, `SearchFacts.MinimaxFullWindow` and `SearchFacts.NegamaxIsMinimax`. |
| SearchSpec.ChildScore | multiAgent.py:28-29 | The child's minimax score one level deeper for the other side; no contract of its own. It is used by `Scan`, and its properties follow from `SearchFacts.MinimaxResultLegal` and `SearchFacts.NegaChildIsChild`. |
| SearchSpec.Scan | multiAgent.py:22-52 | The loop of `minimax` over the moves not yet examined: the returned move is the incoming best move or one of those moves. `SearchFacts.ScanResultLegal` and `SearchFacts.PlainScanFirstBest` state the rest. |
| SearchSpec.Negamax | multiAgent.py:54-87 | `negamax` as a function: a returned move is one of `get_moves`. What it means is stated by `SearchFacts.NegamaxIsMinimax`, `SearchFacts.NegamaxFailSoft` and `SearchFacts.NegamaxFullWindow`. |
| SearchSpec.NegaChildScore | multiAgent.py:71-73 | The child's negamax score with the window negated and swapped and the colour flipped, negated; no contract of its own. `SearchFacts.NegaChildIsChild` relates it to the child's minimax score. |
| SearchSpec.NegaScan | multiAgent.py:67-87 | The loop of `negamax`: the returned move is the incoming best move or one of the moves examined. `SearchFacts.NegaScanIsMaxScan`, `SearchFacts.NegaScanIsMinScan` and `SearchFacts.NegaScanFailSoft` state the rest. |
| SearchSpec.MaxScanStep | multiAgent.py:27-35 | (proof helper) One turn of the maximiser's loop. Stopping when beta <= alpha gives the best score and first best move so far. Otherwise the rest of the loop runs with the raised alpha. |
| SearchSpec.MinScanStep | multiAgent.py:42-50 | (proof helper) One turn of the minimiser's loop, with beta lowered and the same cut-off. |
| SearchSpec.NegaScanStep | multiAgent.py:70-84 | (proof helper) One turn of negamax's loop: the child searched with (-beta, -alpha, -colour) and its score negated, then the cut-off at alpha >= beta. |
| SearchEngine.Minimax | multiAgent.py:13-52 | Returns the score and move of the pruned minimax specification. A leaf (depth 0 or game over) gives `get_scores` and no move. The state's `winner` afterwards is the verdict when the game is over and its old value otherwise, as `is_terminal` leaves it. |
| SearchEngine.MaxMoves | multiAgent.py:24-37 | The maximiser's loop (running best, first best move, rising alpha, break at beta <= alpha) returns the specification's loop result. |
| SearchEngine.MinMoves | multiAgent.py:39-52 | The minimiser's loop (running best, first best move, falling beta, break at beta <= alpha) returns the specification's loop result. |
| SearchEngine.MinimaxChild | multiAgent.py:28-29 | Builds the child with `get_new_state`, searches it one level deeper for the other side and returns the child's score. |
| SearchEngine.Negamax | multiAgent.py:54-87 | Returns the score and move of the pruned negamax specification. A leaf gives colour × `get_scores` and no move. The state's `winner` afterwards is the verdict when the game is over and its old value otherwise. |
| SearchEngine.NegamaxMoves | multiAgent.py:67-87 | The loop over the moves (running best, first best move, alpha, break at alpha >= beta) returns the specification's loop result. |
| SearchEngine.NegamaxChild | multiAgent.py:71-73 | Searches the child with the window negated and swapped and the colour flipped, then negates its score. |
| SearchFacts.MinimaxResultLegal | multiAgent.py:17-52 | The score is -1, 0 or +1. A move is returned exactly when depth != 0 and the game is not over. That move is one of `get_moves()`. |
| SearchFacts.ScanResultLegal | multiAgent.py:22-52 | A loop over legal moves ends with a real score and an empty cell as its move. |
| SearchFacts.NegamaxIsMinimax | multiAgent.py:54-87 | For colour +1, negamax(s, d, a, b) is minimax(s, d, True, a, b). For colour -1, it is minimax(s, d, False, -b, -a) with the score negated. The same move is chosen in both cases. |
| SearchFacts.NegaChildIsChild | multiAgent.py:71-73 | The negated negamax score of a child is the minimax score of that child, oriented by the colour. |
| SearchFacts.NegaScanIsMaxScan | multiAgent.py:67-87 | Negamax's loop for colour +1 is the maximiser's loop of minimax. |
| SearchFacts.NegaScanIsMinScan | multiAgent.py:67-87 | Negamax's loop for colour -1 is the minimiser's loop, with the window and scores negated. |
| SearchFacts.MinStepNegated | multiAgent.py:45-50 | (proof helper) On the negated scale, the minimiser's improvement test, new beta and cut-off match negamax's. |
| SearchFacts.NegamaxFailSoft | multiAgent.py:54-87 | With alpha < beta: a result at or below alpha bounds the true negamax value from above, and one at or above beta bounds it from below. A result strictly inside the window is the true value, reached by the same move. |
| SearchFacts.NegaScanFailSoft | multiAgent.py:67-87 | The negamax loop keeps the fail-soft relation to the unpruned loop, including after a cut-off. |
| SearchFacts.NegaChildFailSoft | multiAgent.py:71-73 | A child's score searched with the mirrored window is fail-soft against its unpruned score. |
| SearchFacts.ScanStep | multiAgent.py:77-84 | (proof helper) One turn of the negamax loop preserves the loop invariant that links it to the unpruned loop. |
| SearchFacts.PlainNegaScanGrows | multiAgent.py:67-87 | The unpruned loop's best score never falls below its starting value. |
| SearchFacts.NegamaxFullWindow | multiAgent.py:54-87 | negamax with the default window (-inf, +inf) returns the unpruned negamax score and move. |
| SearchFacts.MinimaxFullWindow | multiAgent.py:13-52 | minimax with the default window (-inf, +inf) returns the score and move of unpruned depth-limited minimax. |
| SearchFacts.PlainMinimaxFirstBest | multiAgent.py:24-52 | At a non-leaf node, the unpruned search returns some move j of `get_moves()`, and its value is j's value. Every earlier move is strictly worse and no later move is strictly better, so ties go to the first. |
| SearchFacts.PlainScanFirstBest | multiAgent.py:27-32 | The loop's strict `>` (or `<`) test keeps the first move reaching the best value seen so far. |
| DepthPolicy.ChooseDepth | full_game_stub.py:8-26 | The depth is never negative for a count >= 0, and positive when a cell is empty. Sizes 3, and counts below 3, give exactly the count. Other sizes give 3 to 6 otherwise. |
| DepthPolicy.ChooseDepthByBands | full_game_stub.py:8-26 | The chain of returns is a lookup in the size's table. For 4×4: 4 from 10 empty cells, 5 from 6, 6 from 3. For any other size but 3: 3 from 18, 4 from 12, 5 from 6, 6 from 3. Below the last threshold, the count. |
| DepthPolicy.LookupMonotone | full_game_stub.py:12-25 | In a table with falling thresholds and rising depths, fewer empty cells never give a shallower search within the table. |
| DepthPolicy.DepthGrowsAsBoardFills | full_game_stub.py:12-25 | For sizes other than 3 and counts from 3 up, the depth never decreases as the count decreases. |

## Left out

- The `SimpleTicTacToe` class (full_game_stub.py:28-223) is not modelled. It is pygame window setup, drawing, the mouse event loop, timed waits and console output.
- `print_principal_path` and `write_principal_path_to_file` are not modelled. They are console and file output.
- The `print` calls and the `indent` parameter of `negamax` are not modelled. They are console output only.
- The global `path_trace` list is not modelled. The search only appends to it and never reads it, so it cannot affect a returned score or move.
- `__repr__` is not modelled. It is a string rendering.
- numpy's coercion of the input by `np.array(..., dtype=int)` is modelled only for grids of integers. A non-integer cell, or an input that is not a list of rows, cannot be expressed. `Ragged` stands for rows of unequal length and `Overflow` for a cell outside the signed 64-bit range; the model looks at row lengths before cell values, as numpy settles the shape of nested lists before it converts their values. The constructor does not check that cells are -1, 0 or +1, and neither does the model; the meaning lemmas (`OutcomeMeaning` and its helpers) require that, and a side of at most 5.
- Default arguments are not modelled as defaults: `turn_O=False` (GameStatus_5120.py:6), `alpha=-inf` and `beta=+inf` (multiAgent.py:14, 54) and `color=1` (multiAgent.py:55) are passed explicitly by the caller. `MinimaxFullWindow` and `NegamaxFullWindow` state what the searches return with the default window, and `NegamaxIsMinimax` covers colour 1.
- 64-bit wrap-around inside `get_new_state` and the search is not at issue: they only write the marks -1 and +1, and scores stay within -100 .. 100.
- Python's negative-index wraparound in `get_new_state` is not modelled. `GetNewState` requires the move to lie inside the board, and the search only ever plays empty cells.
- The unused argument of `get_scores` is not modelled.
- `float('inf')` is modelled as the `ExtInt` datatype, the integers with -inf and +inf. Python's `max` and `min` keep their first argument on ties, as `Max` and `Min` do. No floating-point arithmetic occurs.
- `copy.deepcopy` is modelled as value semantics. Grids are immutable sequences, and each object's grid is a constant field.
- Facts about whole game trees, such as the value of the empty board, are not stated. Proving them would mean enumerating the tree.

=== FILE: board_facts.dfy ===
/** What the board rules promise: the move list is exactly the empty cells,
    in row-major order, without repeats; a move removes exactly its own cell
    from that list; a board that is not over has a move; and the line-sum
    test of is_terminal means "some line is fully owned by one player". */
module BoardFacts {
  import opened Rules

  // ---------------------------------------------------------------------
  // The move list

  /** Rows in order: a list of earlier rows followed by a list of row k. */
  lemma RowMajorConcatRows(a: seq<Move>, b: seq<Move>, k: int)
    requires RowMajor(a) && RowMajor(b)
    requires forall i :: 0 <= i < |a| ==> a[i].0 < k
    requires forall j :: 0 <= j < |b| ==> b[j].0 == k
    ensures RowMajor(a + b)
  {
    forall i, j | 0 <= i < j < |a + b| ensures Before((a + b)[i], (a + b)[j]) {
      if j < |a| {
        assert (a + b)[i] == a[i] && (a + b)[j] == a[j];
      } else if i >= |a| {
        assert (a + b)[i] == b[i - |a|] && (a + b)[j] == b[j - |a|];
      } else {
        assert (a + b)[i] == a[i] && (a + b)[j] == b[j - |a|];
      }
    }
  }

  /** One more cell, after every cell already listed. */
  lemma RowMajorSnoc(a: seq<Move>, x: Move)
    requires RowMajor(a)
    requires forall i :: 0 <= i < |a| ==> Before(a[i], x)
    ensures RowMajor(a + [x])
  {
    forall i, j | 0 <= i < j < |a + [x]| ensures Before((a + [x])[i], (a + [x])[j]) {
      assert (a + [x])[i] == a[i];
      if j < |a| {
        assert (a + [x])[j] == a[j];
      }
    }
  }

  lemma {:induction false} RowMovesMembers(row: seq<int>, r: int, c: nat)
    requires c <= |row|
    ensures forall m :: m in RowMoves(row, r, c) <==> m.0 == r && 0 <= m.1 < c && row[m.1] == 0
  {
    if c > 0 {
      RowMovesMembers(row, r, c - 1);
    }
  }

  lemma {:induction false} RowMovesOrder(row: seq<int>, r: int, c: nat)
    requires c <= |row|
    ensures forall j :: 0 <= j < |RowMoves(row, r, c)| ==>
              RowMoves(row, r, c)[j].0 == r && RowMoves(row, r, c)[j].1 < c
    ensures RowMajor(RowMoves(row, r, c))
  {
    if c > 0 {
      RowMovesOrder(row, r, c - 1);
      var a := RowMoves(row, r, c - 1);
      if row[c - 1] == 0 {
        RowMajorSnoc(a, (r, c - 1));
        assert RowMoves(row, r, c) == a + [(r, c - 1)];
      } else {
        assert RowMoves(row, r, c) == a;
      }
    }
  }

  lemma {:induction false} MovesUpToMembers(g: Grid, n: nat, r: nat)
    requires IsSquare(g, n) && r <= n
    ensures forall m :: m in MovesUpTo(g, n, r) <==>
              0 <= m.0 < r && 0 <= m.1 < n && g[m.0][m.1] == 0
  {
    if r > 0 {
      MovesUpToMembers(g, n, r - 1);
      RowMovesMembers(g[r - 1], r - 1, n);
    }
  }

  lemma {:induction false} MovesUpToOrder(g: Grid, n: nat, r: nat)
    requires IsSquare(g, n) && r <= n
    ensures forall i :: 0 <= i < |MovesUpTo(g, n, r)| ==> MovesUpTo(g, n, r)[i].0 < r
    ensures RowMajor(MovesUpTo(g, n, r))
  {
    if r > 0 {
      MovesUpToOrder(g, n, r - 1);
      RowMovesOrder(g[r - 1], r - 1, n);
      var a, b := MovesUpTo(g, n, r - 1), RowMoves(g[r - 1], r - 1, n);
      assert MovesUpTo(g, n, r) == a + b;
      RowMajorConcatRows(a, b, r - 1);
    }
  }

  /** get_moves lists exactly the empty cells of the board. */
  lemma MovesAreEmptyCells(g: Grid, n: nat)
    requires IsSquare(g, n)
    ensures forall m :: m in Moves(g, n) <==> IsEmptyCell(g, n, m)
  {
    MovesUpToMembers(g, n, n);
  }

  /** get_moves lists them in strict row-major order, hence without repeats. */
  lemma MovesInRowMajorOrder(g: Grid, n: nat)
    requires IsSquare(g, n)
    ensures RowMajor(Moves(g, n))
    ensures forall i, j :: 0 <= i < j < |Moves(g, n)| ==> Moves(g, n)[i] != Moves(g, n)[j]
  {
    MovesUpToOrder(g, n, n);
  }

  // ---------------------------------------------------------------------
  // One move removes exactly one empty cell

  lemma {:induction false} RowMovesAfterMark(row: seq<int>, r: int, c: nat, k: nat, v: int)
    requires c <= |row| && k < |row| && row[k] == 0 && v != 0
    ensures |RowMoves(row[k := v], r, c)| == |RowMoves(row, r, c)| - (if k < c then 1 else 0)
  {
    if c > 0 {
      RowMovesAfterMark(row, r, c - 1, k, v);
    }
  }

  lemma {:induction false} MovesUpToAfterMark(g: Grid, n: nat, r: nat, i: nat, j: nat, v: int)
    requires IsSquare(g, n) && r <= n && i < n && j < n && g[i][j] == 0 && v != 0
    ensures IsSquare(g[i := g[i][j := v]], n)
    ensures |MovesUpTo(g[i := g[i][j := v]], n, r)| == |MovesUpTo(g, n, r)| - (if i < r then 1 else 0)
  {
    if r > 0 {
      MovesUpToAfterMark(g, n, r - 1, i, j, v);
      if r - 1 == i {
        RowMovesAfterMark(g[i], i, n, j, v);
      }
    }
  }

  /** Marking an empty cell removes exactly that cell from the move list:
      the child has one empty cell fewer, the measure that bounds the search. */
  lemma ApplyRemovesMove(g: Grid, n: nat, m: Move, turnO: bool)
    requires IsSquare(g, n) && IsEmptyCell(g, n, m)
    ensures |Moves(Apply(g, n, m, turnO), n)| == |Moves(g, n)| - 1
    ensures forall m' :: m' in Moves(Apply(g, n, m, turnO), n) <==> m' in Moves(g, n) && m' != m
  {
    MovesUpToAfterMark(g, n, n, m.0, m.1, Mark(turnO));
    MovesAreEmptyCells(g, n);
    MovesAreEmptyCells(Apply(g, n, m, turnO), n);
  }

  /** The count alone, which is what bounds the recursion of the search. */
  lemma FewerMovesAfter(g: Grid, n: nat, m: Move, turnO: bool)
    requires IsSquare(g, n) && IsEmptyCell(g, n, m)
    ensures |Moves(Apply(g, n, m, turnO), n)| < |Moves(g, n)|
  {
    MovesUpToAfterMark(g, n, n, m.0, m.1, Mark(turnO));
  }

  // ---------------------------------------------------------------------
  // A board that is not over has a move

  lemma {:induction false} LinesVerdictNone(g: Grid, n: nat, from: nat)
    requires IsSquare(g, n) && LinesVerdict(g, n, from).None?
    ensures DiagVerdict(g, n).None?
    decreases n - from
  {
    if from < n {
      LinesVerdictNone(g, n, from + 1);
    }
  }

  /** When is_terminal is false there is an empty cell, so get_moves is non-empty. */
  lemma NotOverHasMoves(g: Grid, n: nat)
    requires IsSquare(g, n) && Outcome(g, n).None?
    ensures HasZero(g, n)
    ensures Moves(g, n) != []
  {
    LinesVerdictNone(g, n, 0);
    var r, c :| 0 <= r < n && 0 <= c < n && g[r][c] == 0;
    MovesAreEmptyCells(g, n);
    assert (r, c) in Moves(g, n);
  }

  // ---------------------------------------------------------------------
  // What the line-sum test means on a board of marks

  /** Every cell holds -1, 0 or +1. The constructor only checks that cells
      fit in 64 bits; the lemmas below about the meaning of a line sum need
      marks, and a side of at most 5, so that no sum wraps around. */
  predicate CellsValid(g: Grid, n: nat)
    requires IsSquare(g, n)
  {
    forall r, c :: 0 <= r < n && 0 <= c < n ==> -1 <= g[r][c] <= 1
  }

  predicate LineValid(line: seq<int>) {
    forall k :: 0 <= k < |line| ==> -1 <= line[k] <= 1
  }

  /** Every cell of the line holds the mark s. */
  predicate Owned(line: seq<int>, s: int) {
    forall k :: 0 <= k < |line| ==> line[k] == s
  }

  /** Row i or column i is owned by s. */
  predicate LineOwned(g: Grid, n: nat, s: int, i: nat)
    requires IsSquare(g, n) && i < n
  {
    Owned(g[i], s) || Owned(Col(g, n, i), s)
  }

  /** Row i or column i is owned by s, for some i in from .. n-1 (stated as
      an existential by RowOrColOwnedMeaning). */
  predicate RowOrColOwned(g: Grid, n: nat, s: int, from: nat)
    requires IsSquare(g, n)
    decreases n - from
  {
    from < n && (LineOwned(g, n, s, from) || RowOrColOwned(g, n, s, from + 1))
  }

  lemma {:induction false} RowOrColOwnedMeaning(g: Grid, n: nat, s: int, from: nat)
    requires IsSquare(g, n)
    ensures RowOrColOwned(g, n, s, from) <==> exists i :: from <= i < n && LineOwned(g, n, s, i)
    decreases n - from
  {
    if from < n {
      RowOrColOwnedMeaning(g, n, s, from + 1);
      if LineOwned(g, n, s, from) {
        assert from <= from < n && LineOwned(g, n, s, from);
      } else if RowOrColOwned(g, n, s, from + 1) {
        var i :| from + 1 <= i < n && LineOwned(g, n, s, i);
        assert from <= i < n && LineOwned(g, n, s, i);
      }
      if exists i :: from <= i < n && LineOwned(g, n, s, i) {
        var i :| from <= i < n && LineOwned(g, n, s, i);
        if i > from {
          assert from + 1 <= i < n && LineOwned(g, n, s, i);
        }
      }
    }
  }

  predicate DiagOwned(g: Grid, n: nat, s: int)
    requires IsSquare(g, n)
  {
    Owned(Diag(g, n), s) || Owned(AntiDiag(g, n), s)
  }

  /** s has a full line: a row, a column or a diagonal holding only s. */
  predicate Wins(g: Grid, n: nat, s: int)
    requires IsSquare(g, n)
  {
    RowOrColOwned(g, n, s, 0) || DiagOwned(g, n, s)
  }

  /** On a line of marks, the sum reaches +length (-length) exactly when
      every cell is +1 (-1). */
  lemma {:induction false} SumOfMarks(line: seq<int>)
    requires LineValid(line)
    ensures Abs(Sum(line)) <= |line|
    ensures Sum(line) == |line| <==> Owned(line, 1)
    ensures Sum(line) == -|line| <==> Owned(line, -1)
  {
    if line != [] {
      var k := |line| - 1;
      SumOfMarks(line[..k]);
      assert line == line[..k] + [line[k]];
    }
  }

  lemma LinesOfValidBoard(g: Grid, n: nat)
    requires IsSquare(g, n) && CellsValid(g, n)
    ensures forall i :: 0 <= i < n ==> LineValid(g[i]) && LineValid(Col(g, n, i))
    ensures LineValid(Diag(g, n)) && LineValid(AntiDiag(g, n))
  {
  }

  lemma DiagVerdictMeaning(g: Grid, n: nat)
    requires IsSquare(g, n) && CellsValid(g, n) && n <= 5
    ensures DiagVerdict(g, n) == Some(1) ==> DiagOwned(g, n, 1)
    ensures DiagVerdict(g, n) == Some(-1) ==> DiagOwned(g, n, -1)
    ensures DiagOwned(g, n, 1) || DiagOwned(g, n, -1) ==>
              DiagVerdict(g, n) == Some(1) || DiagVerdict(g, n) == Some(-1)
    ensures !DiagOwned(g, n, 1) && !DiagOwned(g, n, -1) ==>
              DiagVerdict(g, n) == if HasZero(g, n) then None else Some(0)
    ensures DiagOwned(g, n, 1) && !DiagOwned(g, n, -1) ==> DiagVerdict(g, n) == Some(1)
    ensures DiagOwned(g, n, -1) && !DiagOwned(g, n, 1) ==> DiagVerdict(g, n) == Some(-1)
    ensures DiagOwned(g, n, 1) ==> DiagVerdict(g, n) == Some(1)
  {
    LinesOfValidBoard(g, n);
    SumOfMarks(Diag(g, n));
    SumOfMarks(AntiDiag(g, n));
  }

  /** One step of the row/column scan, read as ownership of row and column `from`. */
  lemma LinesVerdictStep(g: Grid, n: nat, from: nat)
    requires IsSquare(g, n) && CellsValid(g, n) && n <= 5 && from < n
    ensures LinesVerdict(g, n, from) ==
              if Owned(g[from], 1) then Some(1)
              else if Owned(g[from], -1) then Some(-1)
              else if Owned(Col(g, n, from), 1) then Some(1)
              else if Owned(Col(g, n, from), -1) then Some(-1)
              else LinesVerdict(g, n, from + 1)
  {
    LinesOfValidBoard(g, n);
    SumOfMarks(g[from]);
    SumOfMarks(Col(g, n, from));
  }

  /** What LinesVerdictMeaning states about a verdict v of the scan from some
      index, given whether +1 (o1) and -1 (om) own a row or column from there
      and the verdict d of the diagonal test. */
  predicate ScanMeaning(v: Option<int>, o1: bool, om: bool, d: Option<int>) {
    (v == Some(1) ==> o1 || d == Some(1)) &&
    (v == Some(-1) ==> om || d == Some(-1)) &&
    (o1 || om ==> v == Some(1) || v == Some(-1)) &&
    (!o1 && !om ==> v == d) &&
    (o1 && !om ==> v == Some(1)) &&
    (om && !o1 ==> v == Some(-1))
  }

  /** The propositional heart of one scan step: checking row and column
      `from` before the rest keeps the meaning. */
  lemma ScanMeaningStep(v: Option<int>, v': Option<int>, d: Option<int>, o1: bool, om: bool,
                        r1: bool, rm: bool, c1: bool, cm: bool, n1: bool, nm: bool)
    requires v == if r1 then Some(1) else if rm then Some(-1)
                  else if c1 then Some(1) else if cm then Some(-1) else v'
    requires ScanMeaning(v', n1, nm, d)
    requires o1 == (r1 || c1 || n1) && om == (rm || cm || nm)
    ensures ScanMeaning(v, o1, om, d)
  {
  }

  /** The induction step of LinesVerdictMeaning: checking row and column
      `from` before the rest of the scan keeps its meaning. */
  lemma LinesVerdictMeaningStep(g: Grid, n: nat, from: nat)
    requires IsSquare(g, n) && CellsValid(g, n) && n <= 5 && from < n
    requires ScanMeaning(LinesVerdict(g, n, from + 1), RowOrColOwned(g, n, 1, from + 1),
                         RowOrColOwned(g, n, -1, from + 1), DiagVerdict(g, n))
    ensures ScanMeaning(LinesVerdict(g, n, from), RowOrColOwned(g, n, 1, from),
                        RowOrColOwned(g, n, -1, from), DiagVerdict(g, n))
  {
    LinesVerdictStep(g, n, from);
    ScanMeaningStep(LinesVerdict(g, n, from), LinesVerdict(g, n, from + 1), DiagVerdict(g, n),
                    RowOrColOwned(g, n, 1, from), RowOrColOwned(g, n, -1, from),
                    Owned(g[from], 1), Owned(g[from], -1),
                    Owned(Col(g, n, from), 1), Owned(Col(g, n, from), -1),
                    RowOrColOwned(g, n, 1, from + 1), RowOrColOwned(g, n, -1, from + 1));
  }

  lemma {:induction false} LinesVerdictMeaning(g: Grid, n: nat, from: nat)
    requires IsSquare(g, n) && CellsValid(g, n) && n <= 5 && from <= n
    ensures ScanMeaning(LinesVerdict(g, n, from), RowOrColOwned(g, n, 1, from),
                        RowOrColOwned(g, n, -1, from), DiagVerdict(g, n))
    decreases n - from
  {
    if from < n {
      LinesVerdictMeaning(g, n, from + 1);
      LinesVerdictMeaningStep(g, n, from);
    } else {
      assert LinesVerdict(g, n, from) == DiagVerdict(g, n);
      assert !RowOrColOwned(g, n, 1, from) && !RowOrColOwned(g, n, -1, from);
    }
  }

  /** is_terminal on a board of marks: it reports a win for s whenever s owns
      a line and -s does not, it reports a win only for a side owning a line,
      a draw exactly when no line is owned and no cell is empty, and "not over"
      exactly when no line is owned and some cell is empty. */
  lemma OutcomeMeaning(g: Grid, n: nat)
    requires IsSquare(g, n) && CellsValid(g, n) && n <= 5
    ensures Outcome(g, n) == Some(1) ==> Wins(g, n, 1)
    ensures Outcome(g, n) == Some(-1) ==> Wins(g, n, -1)
    ensures Outcome(g, n) == Some(0) <==> !Wins(g, n, 1) && !Wins(g, n, -1) && !HasZero(g, n)
    ensures Outcome(g, n) == None <==> !Wins(g, n, 1) && !Wins(g, n, -1) && HasZero(g, n)
    ensures Wins(g, n, 1) && !Wins(g, n, -1) ==> Outcome(g, n) == Some(1)
    ensures Wins(g, n, -1) && !Wins(g, n, 1) ==> Outcome(g, n) == Some(-1)
  {
    LinesVerdictMeaning(g, n, 0);
    DiagVerdictMeaning(g, n);
  }

  /** A row or column decides before the diagonals; when no row or column is
      owned and X owns a diagonal, X's win is reported whatever O holds. */
  lemma DiagonalsFavourX(g: Grid, n: nat)
    requires IsSquare(g, n) && CellsValid(g, n) && n <= 5
    requires !RowOrColOwned(g, n, 1, 0) && !RowOrColOwned(g, n, -1, 0) && DiagOwned(g, n, 1)
    ensures Outcome(g, n) == Some(1)
  {
    LinesVerdictMeaning(g, n, 0);
    DiagVerdictMeaning(g, n);
  }

  // ---------------------------------------------------------------------
  // 64-bit wrap-around in the line sums

  /** The line sums are numpy's: two cells of 2^63 - 1 and a 5 add up to
      2^64 + 3, which wraps to 3. The constructor accepts this board, and
      is_terminal reports a win for X although X owns no line. */
  lemma WrappedRowSumWins()
    ensures var g := [[Int64Max, Int64Max, 5], [0, 0, 0], [0, 0, 0]];
            CheckShape(g) == Ok(3) && Outcome(g, 3) == Some(1) && !Wins(g, 3, 1)
  {
    var g := [[Int64Max, Int64Max, 5], [0, 0, 0], [0, 0, 0]];
    var row := g[0];
    assert Sum(row[..1]) == Int64Max by {
      assert row[..1][..0] == [];
    }
    assert Sum(row[..2]) == 2 * Int64Max by {
      assert row[..2][..1] == row[..1];
    }
    assert Sum(row) == 0x1_0000_0000_0000_0003 by {
      assert row[..2] == row[..|row| - 1];
    }
    assert LineSum(g[0]) == 3;
    assert !Owned(g[0], 1) && !Owned(Col(g, 3, 0), 1) by {
      assert g[0][2] == 5 && Col(g, 3, 0)[1] == 0;
    }
    assert !Owned(g[1], 1) && !Owned(Col(g, 3, 1), 1) by {
      assert g[1][0] == 0 && Col(g, 3, 1)[1] == 0;
    }
    assert !Owned(g[2], 1) && !Owned(Col(g, 3, 2), 1) by {
      assert g[2][0] == 0 && Col(g, 3, 2)[1] == 0;
    }
    assert !RowOrColOwned(g, 3, 1, 0);
    assert Diag(g, 3)[1] == 0 && AntiDiag(g, 3)[1] == 0;
  }

  /** The 4x4 board whose main diagonal is O's and whose anti-diagonal is X's,
      with a 0 in every row and every column. */
  lemma DiagonalTieBoard(g: Grid)
    requires g == [[-1, 0, 0, 1], [0, -1, 1, 0], [0, 1, -1, 0], [1, 0, 0, -1]]
    ensures IsSquare(g, 4) && CellsValid(g, 4)
    ensures Owned(Diag(g, 4), -1) && Owned(AntiDiag(g, 4), 1)
    ensures !RowOrColOwned(g, 4, 1, 0) && !RowOrColOwned(g, 4, -1, 0)
  {
    assert IsSquare(g, 4) && CellsValid(g, 4);
    forall s | s == 1 || s == -1
      ensures !RowOrColOwned(g, 4, s, 0)
    {
      assert !LineOwned(g, 4, s, 3) by { assert g[3][1] == 0 && Col(g, 4, 3)[1] == 0; }
      assert !LineOwned(g, 4, s, 2) by { assert g[2][0] == 0 && Col(g, 4, 2)[0] == 0; }
      assert !LineOwned(g, 4, s, 1) by { assert g[1][0] == 0 && Col(g, 4, 1)[0] == 0; }
      assert !LineOwned(g, 4, s, 0) by { assert g[0][1] == 0 && Col(g, 4, 0)[1] == 0; }
    }
    assert Owned(Diag(g, 4), -1) && Owned(AntiDiag(g, 4), 1);
  }

  /** The diagonal test favours X: on a 4x4 board the two diagonals share no
      cell, so O can own one while X owns the other, and then X's win is
      reported although O's diagonal is summed first. */
  lemma DiagonalTieGoesToX(g: Grid)
    requires g == [[-1, 0, 0, 1], [0, -1, 1, 0], [0, 1, -1, 0], [1, 0, 0, -1]]
    ensures IsSquare(g, 4)
    ensures Owned(Diag(g, 4), -1) && Owned(AntiDiag(g, 4), 1)
    ensures !RowOrColOwned(g, 4, 1, 0) && !RowOrColOwned(g, 4, -1, 0)
    ensures Outcome(g, 4) == Some(1)
  {
    DiagonalTieBoard(g);
    DiagonalsFavourX(g, 4);
  }
}

=== FILE: depth_policy.dfy ===
/** choose_depth: how deep the computer searches, from the side of the board
    and the number of empty cells. A 3x3 board is searched to the end; the
    larger boards search shallowly while many cells are empty and deeper as
    the board fills up, and to the end once fewer than three cells are left. */
module DepthPolicy {

  /** From `atLeast` empty cells upward (up to the band before it), the
      search goes `depth` plies deep. */
  datatype Band = Band(atLeast: int, depth: int)

  /** The policy written as data: the bands for a board side, from the most
      empty cells to the fewest. Every side other than 3 and 4 gets the
      table of the 5x5 board. */
  function Bands(size: int): seq<Band> {
    if size == 3 then []
    else if size == 4 then [Band(10, 4), Band(6, 5), Band(3, 6)]
    else [Band(18, 3), Band(12, 4), Band(6, 5), Band(3, 6)]
  }

  /** The depth of the first band whose threshold the count reaches; below
      every band, the count itself (search to the end of the game). */
  function Lookup(bands: seq<Band>, empties: int): int {
    if bands == [] then empties
    else if empties >= bands[0].atLeast then bands[0].depth
    else Lookup(bands[1..], empties)
  }

  /** Thresholds strictly fall and depths never fall along the table. */
  predicate Ordered(bands: seq<Band>) {
    forall i, j :: 0 <= i < j < |bands| ==>
      bands[i].atLeast > bands[j].atLeast && bands[i].depth <= bands[j].depth
  }

  /** choose_depth(size, empties). The search is never negative for a real
      count and never zero while a cell is empty; a 3x3 board, and any board
      with fewer than three empty cells, is searched exactly to the end; a
      larger board is otherwise searched 3 to 6 plies deep. */
  function ChooseDepth(size: int, empties: int): (depth: int)
    ensures empties >= 0 ==> depth >= 0
    ensures empties > 0 ==> depth > 0
    ensures size == 3 || empties < 3 ==> depth == empties
    ensures size != 3 && empties >= 3 ==> 3 <= depth <= 6
  {
    if size == 3 then empties
    else if size == 4 then
      if empties >= 10 then 4
      else if empties >= 6 then 5
      else if empties >= 3 then 6
      else empties
    else
      if empties >= 18 then 3
      else if empties >= 12 then 4
      else if empties >= 6 then 5
      else if empties >= 3 then 6
      else empties
  }

  /** The chain of returns is the table lookup: for 4x4, 4 plies from 10
      empty cells, 5 from 6, 6 from 3; for every other side but 3, 3 plies
      from 18, 4 from 12, 5 from 6, 6 from 3; below the last band, the count. */
  lemma ChooseDepthByBands(size: int, empties: int)
    ensures ChooseDepth(size, empties) == Lookup(Bands(size), empties)
  {
    var bs := Bands(size);
    if size != 3 {
      assert Lookup(bs, empties) ==
             if empties >= bs[0].atLeast then bs[0].depth else Lookup(bs[1..], empties);
      assert Lookup(bs[1..], empties) ==
             if empties >= bs[1].atLeast then bs[1].depth else Lookup(bs[2..], empties);
      assert Lookup(bs[2..], empties) ==
             if empties >= bs[2].atLeast then bs[2].depth else Lookup(bs[3..], empties);
      if size != 4 {
        assert Lookup(bs[3..], empties) ==
               if empties >= bs[3].atLeast then bs[3].depth else Lookup(bs[4..], empties);
        assert bs[4..] == [];
      } else {
        assert bs[3..] == [];
      }
    }
  }

  lemma BandsOrdered(size: int)
    ensures Ordered(Bands(size))
  {
  }

  lemma OrderedTail(bands: seq<Band>)
    requires Ordered(bands) && bands != []
    ensures Ordered(bands[1..])
  {
    var rest := bands[1..];
    forall i, j | 0 <= i < j < |rest|
      ensures rest[i].atLeast > rest[j].atLeast && rest[i].depth <= rest[j].depth
    {
      assert rest[i] == bands[i + 1] && rest[j] == bands[j + 1];
    }
  }

  /** Within the table, the lookup gives a depth at least that of the first band. */
  lemma {:induction false} LookupAtLeastFirst(bands: seq<Band>, empties: int)
    requires Ordered(bands) && bands != [] && empties >= bands[|bands| - 1].atLeast
    ensures Lookup(bands, empties) >= bands[0].depth
    decreases |bands|
  {
    if empties < bands[0].atLeast {
      var rest := bands[1..];
      assert rest[|rest| - 1] == bands[|bands| - 1];
      OrderedTail(bands);
      LookupAtLeastFirst(rest, empties);
      assert rest[0] == bands[1];
    }
  }

  /** Along an ordered table, fewer empty cells never mean a shallower
      search, as long as the count stays within the table. */
  lemma {:induction false} LookupMonotone(bands: seq<Band>, fewer: int, more: int)
    requires Ordered(bands) && bands != []
    requires bands[|bands| - 1].atLeast <= fewer <= more
    ensures Lookup(bands, more) <= Lookup(bands, fewer)
    decreases |bands|
  {
    if more >= bands[0].atLeast {
      if fewer < bands[0].atLeast {
        LookupAtLeastFirst(bands, fewer);
      }
    } else {
      var rest := bands[1..];
      assert rest[|rest| - 1] == bands[|bands| - 1];
      OrderedTail(bands);
      LookupMonotone(rest, fewer, more);
    }
  }

  /** On the 4x4 and larger boards, from three empty cells up, the depth
      never decreases as the board fills up. */
  lemma DepthGrowsAsBoardFills(size: int, fewer: int, more: int)
    requires size != 3 && 3 <= fewer <= more
    ensures ChooseDepth(size, more) <= ChooseDepth(size, fewer)
  {
    ChooseDepthByBands(size, fewer);
    ChooseDepthByBands(size, more);
    BandsOrdered(size);
    LookupMonotone(Bands(size), fewer, more);
  }
}

=== FILE: game_status.dfy ===
/** The board object: a square grid that never changes after construction,
    whose turn it is, and the verdict that is_terminal caches in `winner`. */
module GameState {
  import opened Rules

  class GameStatus {
    const board: Grid
    /** True when O (the minimising side, mark -1) is to move. */
    const turnO: bool
    /** The side length, remembered at construction. */
    const n: nat
    /** None until is_terminal has found the game over; then its verdict. */
    var winner: Option<int>

    /** The grid is square with side 3, 4 or 5 and its cells are 64-bit
        integers, and a cached verdict is the one a fresh evaluation of the
        grid gives. */
    ghost predicate Valid()
      reads this
    {
      3 <= n <= 5 && IsSquare(board, n) && CellsInt64(board) &&
      (winner.Some? ==> winner == Outcome(board, n))
    }

    constructor Init(g: Grid, turn: bool)
      requires CheckShape(g).Ok?
      ensures Valid()
      ensures board == g && turnO == turn && n == |g| && winner == None
    {
      board := g;
      turnO := turn;
      n := |g|;
      winner := None;
    }

    /** The constructor: with no grid, an empty 3x3 board; otherwise the
        given grid, refused unless it is square with side 3, 4 or 5. */
    static method New(input: Option<Grid>, turn: bool) returns (r: Result<GameStatus>)
      ensures r.Ok? <==> input.None? || CheckShape(input.value).Ok?
      ensures input.Some? && r.Err? ==> r.error == CheckShape(input.value).error
      ensures r.Ok? ==> fresh(r.value) && r.value.Valid() && r.value.winner == None &&
                        r.value.turnO == turn &&
                        r.value.board == (if input.None? then Zeros(3) else input.value) &&
                        r.value.n == |r.value.board|
    {
      var g := if input.None? then Zeros(3) else input.value;
      var shape := CheckShape(g);
      if shape.Err? {
        return Err(shape.error);
      }
      var s := new GameStatus.Init(g, turn);
      return Ok(s);
    }

    /** Decides whether the game is over, scanning row i then column i for
        each i, then both diagonals, then looking for an empty cell; on the
        first full line or on a full board it caches the verdict. */
    method IsTerminal() returns (terminal: bool)
      requires Valid()
      modifies this`winner
      ensures Valid()
      ensures terminal <==> Outcome(board, n).Some?
      ensures winner == if terminal then Outcome(board, n) else old(winner)
    {
      var i := 0;
      while i < n
        invariant 0 <= i <= n
        invariant LinesVerdict(board, n, i) == Outcome(board, n)
        invariant winner == old(winner)
      {
        var rowSum := LineSum(board[i]);
        if Abs(rowSum) == n {
          winner := Some(if rowSum == n then 1 else -1);
          return true;
        }
        var colSum := LineSum(Col(board, n, i));
        if Abs(colSum) == n {
          winner := Some(if colSum == n then 1 else -1);
          return true;
        }
        i := i + 1;
      }
      var diag1 := LineSum(Diag(board, n));
      var diag2 := LineSum(AntiDiag(board, n));
      if Abs(diag1) == n || Abs(diag2) == n {
        winner := Some(if diag1 == n || diag2 == n then 1 else -1);
        return true;
      }
      if !HasZero(board, n) {
        winner := Some(0);
        return true;
      }
      return false;
    }

    /** get_scores: the cached verdict read as +1, -1 or 0. */
    function GetScores(): (s: int)
      reads this
      ensures s == 1 <==> winner == Some(1)
      ensures s == -1 <==> winner == Some(-1)
      ensures s == 0 <==> winner !in {Some(1), Some(-1)}
    {
      Score(winner)
    }

    /** get_negamax_scores: the same verdict on the scale of 100. */
    function GetNegamaxScores(): (s: int)
      reads this
      ensures s == 100 * GetScores()
    {
      NegamaxScore(winner)
    }

    /** get_moves: the empty cells, row by row, left to right. */
    method GetMoves() returns (moves: seq<Move>)
      requires Valid()
      ensures moves == Moves(board, n)
    {
      moves := [];
      var r := 0;
      while r < n
        invariant 0 <= r <= n
        invariant moves == MovesUpTo(board, n, r)
      {
        var c := 0;
        while c < n
          invariant 0 <= c <= n
          invariant moves == MovesUpTo(board, n, r) + RowMoves(board[r], r, c)
        {
          if board[r][c] == 0 {
            moves := moves + [(r, c)];
          }
          c := c + 1;
        }
        r := r + 1;
      }
    }

    /** get_new_state: a new object whose grid is a copy of this one with the
        cell of `move` set to the mover's mark; the turn passes to the other
        side and nothing is cached. This object is left as it was. */
    method GetNewState(move: Move) returns (child: GameStatus)
      requires Valid() && InRange(n, move)
      ensures fresh(child) && child.Valid()
      ensures child.board == Apply(board, n, move, turnO)
      ensures child.turnO == !turnO && child.n == n && child.winner == None
    {
      var newBoard := Apply(board, n, move, turnO);
      assert forall r, c :: 0 <= r < n && 0 <= c < n ==> IsInt64(newBoard[r][c]);
      child := new GameStatus.Init(newBoard, !turnO);
    }
  }
}

=== FILE: rules.dfy ===
/** The board rules of the game, as pure functions over a value grid:
    line sums, the terminal verdict, scores, the list of empty cells and
    the effect of one move. The class GameState.GameStatus is built on these. */
module Rules {

  datatype Option<T> = None | Some(value: T)

  /** A grid of rows; a well-formed board is square (see IsSquare). */
  type Grid = seq<seq<int>>

  /** A (row, column) coordinate. */
  type Move = (int, int)

  /** Why the constructor refuses its input; the source raises OverflowError
      for a cell that does not fit in 64 bits and ValueError for the rest. */
  datatype BoardError =
    | Ragged      // rows of different lengths: numpy cannot build a 2-D array
    | Overflow    // a cell outside the signed 64-bit range of numpy's int
    | NotSquare   // not two-dimensional, or rows and columns differ in number
    | BadSize     // square, but the side is not 3, 4 or 5

  datatype Result<T> = Ok(value: T) | Err(error: BoardError)

  predicate IsSquare(g: Grid, n: int) {
    |g| == n && forall r :: 0 <= r < |g| ==> |g[r]| == n
  }

  predicate InRange(n: int, m: Move) {
    0 <= m.0 < n && 0 <= m.1 < n
  }

  /** A legal move: an empty cell inside the board. */
  predicate IsEmptyCell(g: Grid, n: int, m: Move)
    requires IsSquare(g, n)
  {
    InRange(n, m) && g[m.0][m.1] == 0
  }

  /** The shape check of the constructor: Ok(side) exactly when the grid is
      square with side 3, 4 or 5, otherwise the error it raises first. */
  function CheckShape(rows: Grid): (r: Result<nat>)
    ensures r.Ok? <==> (3 <= |rows| <= 5 && IsSquare(rows, |rows|) && CellsInt64(rows))
    ensures r.Ok? ==> r.value == |rows|
    ensures |rows| == 0 ==> r == Err(NotSquare)
    ensures |rows| > 0 && (forall i :: 0 <= i < |rows| ==> |rows[i]| == |rows[0]|) ==>
              (r == Err(Overflow) <==> !CellsInt64(rows))
  {
    if |rows| == 0 then Err(NotSquare)
    else if exists r :: 0 <= r < |rows| && |rows[r]| != |rows[0]| then Err(Ragged)
    else if !CellsInt64(rows) then Err(Overflow)
    else if |rows[0]| != |rows| then Err(NotSquare)
    else if !(3 <= |rows| <= 5) then Err(BadSize)
    else Ok(|rows|)
  }

  /** The board built when no grid is given: n zeros in each of n rows. */
  function Zeros(n: nat): (g: Grid)
    ensures IsSquare(g, n)
    ensures forall r, c :: 0 <= r < n && 0 <= c < n ==> g[r][c] == 0
  {
    seq(n, _ => seq(n, _ => 0))
  }

  // ---------------------------------------------------------------------
  // numpy's 64-bit integers

  const Int64Min: int := -0x8000_0000_0000_0000
  const Int64Max: int := 0x7FFF_FFFF_FFFF_FFFF

  predicate IsInt64(x: int) {
    Int64Min <= x <= Int64Max
  }

  /** Every cell fits numpy's default integer, as np.array(..., dtype=int) demands. */
  predicate CellsInt64(rows: Grid) {
    forall r, c :: 0 <= r < |rows| && 0 <= c < |rows[r]| ==> IsInt64(rows[r][c])
  }

  /** Two's-complement wrap-around into 64 bits: the one int64 value that
      differs from x by a multiple of 2^64. */
  function Wrap64(x: int): (w: int)
    ensures IsInt64(w)
    ensures (x - w) % 0x1_0000_0000_0000_0000 == 0
    ensures IsInt64(x) ==> w == x
  {
    (x - Int64Min) % 0x1_0000_0000_0000_0000 + Int64Min
  }

  // ---------------------------------------------------------------------
  // Line sums

  /** Sum of a line, added left to right. */
  function Sum(s: seq<int>): int {
    if s == [] then 0 else Sum(s[..|s| - 1]) + s[|s| - 1]
  }

  /** np.sum of a line of int64 cells: numpy adds in 64 bits, so the result
      is the exact sum wrapped into int64. */
  function LineSum(s: seq<int>): int {
    Wrap64(Sum(s))
  }

  function Abs(x: int): int {
    if x < 0 then -x else x
  }

  function Col(g: Grid, n: nat, i: nat): (col: seq<int>)
    requires IsSquare(g, n) && i < n
    ensures |col| == n && forall r :: 0 <= r < n ==> col[r] == g[r][i]
  {
    seq(n, r requires 0 <= r < n => g[r][i])
  }

  /** The top-left to bottom-right diagonal. */
  function Diag(g: Grid, n: nat): (d: seq<int>)
    requires IsSquare(g, n)
    ensures |d| == n && forall k :: 0 <= k < n ==> d[k] == g[k][k]
  {
    seq(n, k requires 0 <= k < n => g[k][k])
  }

  /** The top-right to bottom-left diagonal. */
  function AntiDiag(g: Grid, n: nat): (d: seq<int>)
    requires IsSquare(g, n)
    ensures |d| == n && forall k :: 0 <= k < n ==> d[k] == g[k][n - 1 - k]
  {
    seq(n, k requires 0 <= k < n => g[k][n - 1 - k])
  }

  predicate HasZero(g: Grid, n: nat)
    requires IsSquare(g, n)
  {
    exists r, c :: 0 <= r < n && 0 <= c < n && g[r][c] == 0
  }

  // ---------------------------------------------------------------------
  // The terminal verdict, in the order the source tests it

  /** What is_terminal decides, scanning row i and then column i for
      i = from .. n-1, then the diagonals, then the draw test.
      None: not terminal; Some(1) / Some(-1): a win; Some(0): a draw. */
  function LinesVerdict(g: Grid, n: nat, from: nat): (r: Option<int>)
    requires IsSquare(g, n)
    ensures r.Some? ==> -1 <= r.value <= 1
    ensures r == Some(0) ==> !HasZero(g, n)
    decreases n - from
  {
    if from >= n then DiagVerdict(g, n)
    else
      var rowSum := LineSum(g[from]);
      if Abs(rowSum) == n then Some(if rowSum == n then 1 else -1)
      else
        var colSum := LineSum(Col(g, n, from));
        if Abs(colSum) == n then Some(if colSum == n then 1 else -1)
        else LinesVerdict(g, n, from + 1)
  }

  function DiagVerdict(g: Grid, n: nat): (r: Option<int>)
    requires IsSquare(g, n)
    ensures r.Some? ==> -1 <= r.value <= 1
    ensures r == Some(0) ==> !HasZero(g, n)
  {
    var d1 := LineSum(Diag(g, n));
    var d2 := LineSum(AntiDiag(g, n));
    if Abs(d1) == n || Abs(d2) == n then Some(if d1 == n || d2 == n then 1 else -1)
    else if !HasZero(g, n) then Some(0)
    else None
  }

  function Outcome(g: Grid, n: nat): (r: Option<int>)
    requires IsSquare(g, n)
    ensures r.Some? ==> -1 <= r.value <= 1
    ensures r == Some(0) ==> !HasZero(g, n)
  {
    LinesVerdict(g, n, 0)
  }

  // ---------------------------------------------------------------------
  // Scores

  /** get_scores: +1 / -1 for a cached win of X / O, 0 for anything else. */
  function Score(winner: Option<int>): (s: int)
    ensures s == 1 <==> winner == Some(1)
    ensures s == -1 <==> winner == Some(-1)
    ensures -1 <= s <= 1
  {
    if winner == Some(1) then 1
    else if winner == Some(-1) then -1
    else 0
  }

  /** get_negamax_scores: the same verdict on the scale of 100. */
  function NegamaxScore(winner: Option<int>): (s: int)
    ensures s == 100 * Score(winner)
  {
    if winner == Some(1) then 100
    else if winner == Some(-1) then -100
    else 0
  }

  // ---------------------------------------------------------------------
  // Moves: the empty cells in row-major order

  /** The empty cells among the first c cells of row r (whose cells are `row`). */
  function RowMoves(row: seq<int>, r: int, c: nat): (ms: seq<Move>)
    requires c <= |row|
    ensures |ms| <= c
  {
    if c == 0 then []
    else if row[c - 1] == 0 then RowMoves(row, r, c - 1) + [(r, c - 1)]
    else RowMoves(row, r, c - 1)
  }

  /** The empty cells of rows 0 .. r-1. */
  function MovesUpTo(g: Grid, n: nat, r: nat): (ms: seq<Move>)
    requires IsSquare(g, n) && r <= n
    ensures |ms| <= r * n
  {
    if r == 0 then [] else MovesUpTo(g, n, r - 1) + RowMoves(g[r - 1], r - 1, n)
  }

  function Moves(g: Grid, n: nat): (ms: seq<Move>)
    requires IsSquare(g, n)
    ensures |ms| <= n * n
  {
    MovesUpTo(g, n, n)
  }

  /** Strict row-major order of coordinates. */
  predicate Before(a: Move, b: Move) {
    a.0 < b.0 || (a.0 == b.0 && a.1 < b.1)
  }

  predicate RowMajor(ms: seq<Move>) {
    forall i, j :: 0 <= i < j < |ms| ==> Before(ms[i], ms[j])
  }

  // ---------------------------------------------------------------------
  // Applying a move

  /** The mark written by the side to move: -1 when it is O's turn, else +1. */
  function Mark(turnO: bool): (m: int)
    ensures m == 1 || m == -1
    ensures m == -1 <==> turnO
  {
    if turnO then -1 else 1
  }

  /** The grid after the side to move marks cell m; every other cell is kept. */
  function Apply(g: Grid, n: nat, m: Move, turnO: bool): (g': Grid)
    requires IsSquare(g, n) && InRange(n, m)
    ensures IsSquare(g', n)
    ensures forall r, c :: 0 <= r < n && 0 <= c < n ==>
              g'[r][c] == if (r, c) == m then Mark(turnO) else g[r][c]
  {
    g[m.0 := g[m.0][m.1 := Mark(turnO)]]
  }
}

=== FILE: search_engine.dfy ===
/** minimax and negamax as the source runs them: recursive methods over board
    objects, each node calling is_terminal (which caches the verdict in the
    node), get_moves and get_new_state, and looping over the moves with the
    running window until it is closed. Each is proved to return what the
    matching function of SearchSpec returns.

    Each search is written as three methods that call one another: the node
    (the terminal test and the leaf score), the loop over its moves, and one
    turn of that loop (build the child, search it one level deeper). The
    recursion ends because every child has one empty cell fewer. */
module SearchEngine {
  import opened Rules
  import opened BoardFacts
  import opened GameState
  import opened SearchSpec

  // ---------------------------------------------------------------------
  // minimax(state, depth, maximizingPlayer, alpha, beta)

  method Minimax(state: GameStatus, depth: int, maximizing: bool, alpha: ExtInt, beta: ExtInt)
    returns (score: ExtInt, move: Option<Move>)
    requires state.Valid()
    modifies state`winner
    ensures state.Valid()
    ensures (score, move) == SearchSpec.Minimax(state.board, state.n, state.turnO, depth, maximizing, alpha, beta)
    ensures state.winner == if Outcome(state.board, state.n).Some? then Outcome(state.board, state.n)
                            else old(state.winner)
    decreases |Moves(state.board, state.n)|, 2
  {
    var terminal := state.IsTerminal();
    if depth == 0 || terminal {
      assert state.GetScores() == Score(Outcome(state.board, state.n));
      return Fin(state.GetScores()), None;
    }
    var moves := state.GetMoves();
    MovesAllEmpty(state.board, state.n);
    if maximizing {
      score, move := MaxMoves(state, moves, depth, alpha, beta);
    } else {
      score, move := MinMoves(state, moves, depth, alpha, beta);
    }
  }

  /** The maximiser's loop of minimax at a node that is not a leaf: the best
      score rises and alpha with it; the loop stops as soon as beta <= alpha. */
  method MaxMoves(state: GameStatus, moves: seq<Move>, depth: int,
                  alpha: ExtInt, beta: ExtInt) returns (score: ExtInt, move: Option<Move>)
    requires state.Valid() && AllEmptyCells(state.board, state.n, moves)
    ensures (score, move) == Scan(state.board, state.n, state.turnO, depth, true, moves, alpha, beta,
                                  NegInf, None)
    decreases |Moves(state.board, state.n)|, 1
  {
    ghost var g, n, turnO := state.board, state.n, state.turnO;
    assert moves[0..] == moves;
    ghost var spec := Scan(g, n, turnO, depth, true, moves, alpha, beta, NegInf, None);
    var maxEval := NegInf;
    var bestMove: Option<Move> := None;
    var a := alpha;
    for i := 0 to |moves|
      invariant state.Valid()
      invariant Scan(g, n, turnO, depth, true, moves[i..], a, beta, maxEval, bestMove) == spec
    {
      var m := moves[i];
      var evalScore := MinimaxChild(state, m, depth, true, a, beta);
      ghost var a0, best0, bestMove0 := a, maxEval, bestMove;
      if Less(maxEval, evalScore) {
        maxEval := evalScore;
        bestMove := Some(m);
      }
      a := Max(a, evalScore);
      MaxScanStep(g, n, turnO, depth, moves, i, a0, beta, best0, bestMove0, evalScore,
                  a, maxEval, bestMove);
      if LessEq(beta, a) {
        break;
      }
    }
    assert moves[|moves|..] == [];
    return maxEval, bestMove;
  }

  /** The minimiser's loop of minimax at a node that is not a leaf: the best
      score falls and beta with it; the loop stops as soon as beta <= alpha. */
  method MinMoves(state: GameStatus, moves: seq<Move>, depth: int,
                  alpha: ExtInt, beta: ExtInt) returns (score: ExtInt, move: Option<Move>)
    requires state.Valid() && AllEmptyCells(state.board, state.n, moves)
    ensures (score, move) == Scan(state.board, state.n, state.turnO, depth, false, moves, alpha, beta,
                                  PosInf, None)
    decreases |Moves(state.board, state.n)|, 1
  {
    ghost var g, n, turnO := state.board, state.n, state.turnO;
    assert moves[0..] == moves;
    ghost var spec := Scan(g, n, turnO, depth, false, moves, alpha, beta, PosInf, None);
    var minEval := PosInf;
    var bestMove: Option<Move> := None;
    var b := beta;
    for i := 0 to |moves|
      invariant state.Valid()
      invariant Scan(g, n, turnO, depth, false, moves[i..], alpha, b, minEval, bestMove) == spec
    {
      var m := moves[i];
      var evalScore := MinimaxChild(state, m, depth, false, alpha, b);
      ghost var b0, best0, bestMove0 := b, minEval, bestMove;
      if Less(evalScore, minEval) {
        minEval := evalScore;
        bestMove := Some(m);
      }
      b := Min(b, evalScore);
      MinScanStep(g, n, turnO, depth, moves, i, alpha, b0, best0, bestMove0, evalScore,
                  b, minEval, bestMove);
      if LessEq(b, alpha) {
        break;
      }
    }
    assert moves[|moves|..] == [];
    return minEval, bestMove;
  }

  /** One turn of minimax's loop: the child after `m` is built and searched
      one level deeper for the other side; its score is returned. */
  method MinimaxChild(state: GameStatus, m: Move, depth: int, maximizing: bool,
                      alpha: ExtInt, beta: ExtInt) returns (e: ExtInt)
    requires state.Valid() && IsEmptyCell(state.board, state.n, m)
    ensures e == ChildScore(state.board, state.n, state.turnO, depth, maximizing, m, alpha, beta)
    decreases |Moves(state.board, state.n)|, 0
  {
    var child := state.GetNewState(m);
    FewerMovesAfter(state.board, state.n, m, state.turnO);
    assert |Moves(child.board, child.n)| < |Moves(state.board, state.n)|;
    var childMove;
    e, childMove := Minimax(child, depth - 1, !maximizing, alpha, beta);
  }

  // ---------------------------------------------------------------------
  // negamax(state, depth, alpha, beta, color)

  method Negamax(state: GameStatus, depth: int, alpha: ExtInt, beta: ExtInt, color: int)
    returns (score: ExtInt, move: Option<Move>)
    requires state.Valid()
    modifies state`winner
    ensures state.Valid()
    ensures (score, move) == SearchSpec.Negamax(state.board, state.n, state.turnO, depth, alpha, beta, color)
    ensures state.winner == if Outcome(state.board, state.n).Some? then Outcome(state.board, state.n)
                            else old(state.winner)
    decreases |Moves(state.board, state.n)|, 2
  {
    var terminal := state.IsTerminal();
    if depth == 0 || terminal {
      assert state.GetScores() == Score(Outcome(state.board, state.n));
      return Fin(color * state.GetScores()), None;
    }
    var moves := state.GetMoves();
    MovesAllEmpty(state.board, state.n);
    score, move := NegamaxMoves(state, moves, depth, alpha, beta, color);
  }

  /** The loop of negamax at a node that is not a leaf: the best score and
      alpha rise, and the loop stops as soon as alpha >= beta. */
  method NegamaxMoves(state: GameStatus, moves: seq<Move>, depth: int,
                      alpha: ExtInt, beta: ExtInt, color: int) returns (score: ExtInt, move: Option<Move>)
    requires state.Valid() && AllEmptyCells(state.board, state.n, moves)
    ensures (score, move) == NegaScan(state.board, state.n, state.turnO, depth, color, moves, alpha, beta, NegInf, None)
    decreases |Moves(state.board, state.n)|, 1
  {
    ghost var g, n, turnO := state.board, state.n, state.turnO;
    assert moves[0..] == moves;
    assert moves[|moves|..] == [];
    ghost var spec := NegaScan(g, n, turnO, depth, color, moves, alpha, beta, NegInf, None);
    var maxScore := NegInf;
    var bestMove: Option<Move> := None;
    var a := alpha;
    for i := 0 to |moves|
      invariant state.Valid()
      invariant NegaScan(g, n, turnO, depth, color, moves[i..], a, beta, maxScore, bestMove) == spec
    {
      var m := moves[i];
      var evalScore := NegamaxChild(state, m, depth, a, beta, color);
      ghost var a0, best0, bestMove0 := a, maxScore, bestMove;
      if Less(maxScore, evalScore) {
        maxScore := evalScore;
        bestMove := Some(m);
      }
      a := Max(a, evalScore);
      NegaScanStep(g, n, turnO, depth, color, moves, i, a0, beta, best0, bestMove0, evalScore,
                   a, maxScore, bestMove);
      if LessEq(beta, a) {
        break;
      }
    }
    return maxScore, bestMove;
  }

  /** One turn of negamax's loop: the child after `m` is searched with the
      window negated and swapped and the colour flipped; the negation of its
      score is returned. */
  method NegamaxChild(state: GameStatus, m: Move, depth: int,
                      alpha: ExtInt, beta: ExtInt, color: int) returns (e: ExtInt)
    requires state.Valid() && IsEmptyCell(state.board, state.n, m)
    ensures e == NegaChildScore(state.board, state.n, state.turnO, depth, color, m, alpha, beta)
    decreases |Moves(state.board, state.n)|, 0
  {
    var child := state.GetNewState(m);
    ghost var next := Apply(state.board, state.n, m, state.turnO);
    assert child.board == next && child.n == state.n && child.turnO == !state.turnO;
    FewerMovesAfter(state.board, state.n, m, state.turnO);
    assert |Moves(child.board, child.n)| < |Moves(state.board, state.n)|;
    var childScore, childMove := Negamax(child, depth - 1, Neg(beta), Neg(alpha), -color);
    assert childScore == SearchSpec.Negamax(next, state.n, !state.turnO, depth - 1, Neg(beta), Neg(alpha), -color).0;
    e := Neg(childScore);
  }
}

=== FILE: search_facts.dfy ===
/** What the search promises: the move it returns is legal and the score is a
    game score; negamax is minimax seen from the side to move; pruning with
    the full window changes nothing, so the root value and move are those of
    plain depth-limited minimax, whose move is the first best one. */
module SearchFacts {
  import opened Rules
  import opened BoardFacts
  import opened SearchSpec

  // ---------------------------------------------------------------------
  // The extended order

  lemma NegNeg(x: ExtInt)
    ensures Neg(Neg(x)) == x
  {
  }

  lemma LessNeg(x: ExtInt, y: ExtInt)
    ensures Less(Neg(x), Neg(y)) <==> Less(y, x)
  {
  }

  lemma NegMax(a: ExtInt, b: ExtInt)
    ensures Neg(Max(a, b)) == Min(Neg(a), Neg(b))
  {
    LessNeg(a, b);
  }

  /** One turn of negamax's loop for colour -1, with v the child's score as
      the minimiser's loop sees it, read on the minimiser's scale: the same
      improvement test, the new beta and the same cut-off test. */
  lemma MinStepNegated(v: ExtInt, best: ExtInt, alpha: ExtInt, beta: ExtInt)
    ensures Less(v, Neg(best)) == Less(best, Neg(v))
    ensures Min(Neg(alpha), v) == Neg(Max(alpha, Neg(v)))
    ensures LessEq(Neg(Max(alpha, Neg(v))), Neg(beta)) == LessEq(beta, Max(alpha, Neg(v)))
  {
    NegNeg(v);
    LessNeg(best, Neg(v));
    NegMax(alpha, Neg(v));
    LessNeg(beta, Max(alpha, Neg(v)));
  }

  /** A real game score: -1, 0 or +1. */
  predicate InScoreRange(x: ExtInt) {
    x.Fin? && -1 <= x.v <= 1
  }

  // ---------------------------------------------------------------------
  // The move returned is legal

  /** At a leaf (depth 0 or game over) minimax returns the score and no move;
      elsewhere it returns one of the empty cells; the score is always -1, 0
      or +1. */
  lemma {:induction false} MinimaxResultLegal(g: Grid, n: nat, turnO: bool, depth: int, maximizing: bool,
                                              alpha: ExtInt, beta: ExtInt)
    requires IsSquare(g, n)
    ensures InScoreRange(Minimax(g, n, turnO, depth, maximizing, alpha, beta).0)
    ensures Minimax(g, n, turnO, depth, maximizing, alpha, beta).1.Some? <==> depth != 0 && Outcome(g, n).None?
    ensures Minimax(g, n, turnO, depth, maximizing, alpha, beta).1.Some? ==>
              Minimax(g, n, turnO, depth, maximizing, alpha, beta).1.value in Moves(g, n)
    decreases |Moves(g, n)|, 1
  {
    MovesAreEmptyCells(g, n);
    if depth != 0 && Outcome(g, n).None? {
      MovesAllEmpty(g, n);
      NotOverHasMoves(g, n);
      ScanResultLegal(g, n, turnO, depth, maximizing, Moves(g, n), alpha, beta,
                      if maximizing then NegInf else PosInf, None);
    }
  }

  lemma {:induction false} ScanResultLegal(g: Grid, n: nat, turnO: bool, depth: int, maximizing: bool,
                                           ms: seq<Move>, alpha: ExtInt, beta: ExtInt,
                                           best: ExtInt, bestMove: Option<Move>)
    requires IsSquare(g, n) && AllEmptyCells(g, n, ms)
    requires bestMove.None? ==> best == if maximizing then NegInf else PosInf
    requires bestMove.Some? ==> InScoreRange(best) && IsEmptyCell(g, n, bestMove.value)
    requires ms != [] || bestMove.Some?
    ensures InScoreRange(Scan(g, n, turnO, depth, maximizing, ms, alpha, beta, best, bestMove).0)
    ensures Scan(g, n, turnO, depth, maximizing, ms, alpha, beta, best, bestMove).1.Some?
    ensures IsEmptyCell(g, n, Scan(g, n, turnO, depth, maximizing, ms, alpha, beta, best, bestMove).1.value)
    decreases |Moves(g, n)|, 0, |ms|
  {
    if ms != [] {
      var m := ms[0];
      FewerMovesAfter(g, n, m, turnO);
      MinimaxResultLegal(Apply(g, n, m, turnO), n, !turnO, depth - 1, !maximizing, alpha, beta);
      var e := ChildScore(g, n, turnO, depth, maximizing, m, alpha, beta);
      var improved := if maximizing then Less(best, e) else Less(e, best);
      var best' := if improved then e else best;
      var bestMove' := if improved then Some(m) else bestMove;
      var alpha', beta' := if maximizing then Max(alpha, e) else alpha, if maximizing then beta else Min(beta, e);
      if !LessEq(beta', alpha') {
        ScanResultLegal(g, n, turnO, depth, maximizing, ms[1..], alpha', beta', best', bestMove');
      }
    }
  }

  // ---------------------------------------------------------------------
  // negamax is minimax seen from the side to move

  /** The score as seen by the side of the given colour. */
  function Orient(color: int, x: ExtInt): ExtInt {
    if color == 1 then x else Neg(x)
  }

  /** The minimax window that corresponds to a negamax window. */
  function WindowLo(color: int, alpha: ExtInt, beta: ExtInt): ExtInt {
    if color == 1 then alpha else Neg(beta)
  }

  function WindowHi(color: int, alpha: ExtInt, beta: ExtInt): ExtInt {
    if color == 1 then beta else Neg(alpha)
  }

  /** negamax(s, d, a, b, +1) is minimax(s, d, True, a, b), and
      negamax(s, d, a, b, -1) is minimax(s, d, False, -b, -a) with the score
      negated; the same move is chosen in both. */
  lemma {:induction false} NegamaxIsMinimax(g: Grid, n: nat, turnO: bool, depth: int,
                                            alpha: ExtInt, beta: ExtInt, color: int)
    requires IsSquare(g, n) && (color == 1 || color == -1)
    ensures Negamax(g, n, turnO, depth, alpha, beta, color) ==
              var r := Minimax(g, n, turnO, depth, color == 1,
                               WindowLo(color, alpha, beta), WindowHi(color, alpha, beta));
              (Orient(color, r.0), r.1)
    decreases |Moves(g, n)|, 1
  {
    if depth != 0 && Outcome(g, n).None? {
      MovesAllEmpty(g, n);
      if color == 1 {
        NegaScanIsMaxScan(g, n, turnO, depth, Moves(g, n), alpha, beta, NegInf, None);
      } else {
        NegaScanIsMinScan(g, n, turnO, depth, Moves(g, n), alpha, beta, NegInf, None);
      }
    }
  }

  /** The same for the score of one move. */
  lemma {:induction false} NegaChildIsChild(g: Grid, n: nat, turnO: bool, depth: int, color: int, m: Move,
                                            alpha: ExtInt, beta: ExtInt)
    requires IsSquare(g, n) && IsEmptyCell(g, n, m) && (color == 1 || color == -1)
    ensures NegaChildScore(g, n, turnO, depth, color, m, alpha, beta) ==
            Orient(color, ChildScore(g, n, turnO, depth, color == 1, m,
                                     WindowLo(color, alpha, beta), WindowHi(color, alpha, beta)))
    decreases |Moves(g, n)|, 0, 0
  {
    var child := Apply(g, n, m, turnO);
    FewerMovesAfter(g, n, m, turnO);
    NegamaxIsMinimax(child, n, !turnO, depth - 1, Neg(beta), Neg(alpha), -color);
    NegNeg(alpha);
    NegNeg(beta);
    NegNeg(Minimax(child, n, !turnO, depth - 1, color != 1,
                   WindowLo(color, alpha, beta), WindowHi(color, alpha, beta)).0);
  }

  /** The loop of negamax for the side of colour +1 is the maximiser's loop. */
  lemma {:induction false} NegaScanIsMaxScan(g: Grid, n: nat, turnO: bool, depth: int,
                                             ms: seq<Move>, alpha: ExtInt, beta: ExtInt,
                                             best: ExtInt, bestMove: Option<Move>)
    requires IsSquare(g, n) && AllEmptyCells(g, n, ms)
    ensures NegaScan(g, n, turnO, depth, 1, ms, alpha, beta, best, bestMove) ==
            Scan(g, n, turnO, depth, true, ms, alpha, beta, best, bestMove)
    decreases |Moves(g, n)|, 0, |ms|
  {
    if ms != [] {
      NegaChildIsChild(g, n, turnO, depth, 1, ms[0], alpha, beta);
      var e := NegaChildScore(g, n, turnO, depth, 1, ms[0], alpha, beta);
      var best' := if Less(best, e) then e else best;
      var bestMove' := if Less(best, e) then Some(ms[0]) else bestMove;
      var alpha' := Max(alpha, e);
      if !LessEq(beta, alpha') {
        NegaScanIsMaxScan(g, n, turnO, depth, ms[1..], alpha', beta, best', bestMove');
      }
    }
  }

  /** The loop of negamax for the side of colour -1 is the minimiser's loop
      with the window negated and swapped and the scores negated. */
  lemma {:induction false} NegaScanIsMinScan(g: Grid, n: nat, turnO: bool, depth: int,
                                             ms: seq<Move>, alpha: ExtInt, beta: ExtInt,
                                             best: ExtInt, bestMove: Option<Move>)
    requires IsSquare(g, n) && AllEmptyCells(g, n, ms)
    ensures NegaScan(g, n, turnO, depth, -1, ms, alpha, beta, best, bestMove) ==
              var r := Scan(g, n, turnO, depth, false, ms, Neg(beta), Neg(alpha), Neg(best), bestMove);
              (Neg(r.0), r.1)
    decreases |Moves(g, n)|, 0, |ms|
  {
    NegNeg(best);
    if ms != [] {
      NegaChildIsChild(g, n, turnO, depth, -1, ms[0], alpha, beta);
      var v := ChildScore(g, n, turnO, depth, false, ms[0], Neg(beta), Neg(alpha));
      var e := NegaChildScore(g, n, turnO, depth, -1, ms[0], alpha, beta);
      NegNeg(v);
      MinStepNegated(v, best, alpha, beta);
      var best' := if Less(best, e) then e else best;
      var bestMove' := if Less(best, e) then Some(ms[0]) else bestMove;
      var alpha' := Max(alpha, e);
      assert Neg(best') == if Less(v, Neg(best)) then v else Neg(best);
      if LessEq(beta, alpha') {
        assert NegaScan(g, n, turnO, depth, -1, ms, alpha, beta, best, bestMove) == (best', bestMove');
        assert Scan(g, n, turnO, depth, false, ms, Neg(beta), Neg(alpha), Neg(best), bestMove) ==
               (Neg(best'), bestMove');
      } else {
        assert NegaScan(g, n, turnO, depth, -1, ms, alpha, beta, best, bestMove) ==
               NegaScan(g, n, turnO, depth, -1, ms[1..], alpha', beta, best', bestMove');
        assert Scan(g, n, turnO, depth, false, ms, Neg(beta), Neg(alpha), Neg(best), bestMove) ==
               Scan(g, n, turnO, depth, false, ms[1..], Neg(beta), Neg(alpha'), Neg(best'), bestMove');
        NegaScanIsMinScan(g, n, turnO, depth, ms[1..], alpha', beta, best', bestMove');
      }
    }
  }

  // ---------------------------------------------------------------------
  // Fail-soft alpha-beta computes the plain negamax value

  lemma LessTrans(a: ExtInt, b: ExtInt, c: ExtInt)
    ensures Less(a, b) && Less(b, c) ==> Less(a, c)
    ensures LessEq(a, b) && Less(b, c) ==> Less(a, c)
    ensures Less(a, b) && LessEq(b, c) ==> Less(a, c)
    ensures LessEq(a, b) && LessEq(b, c) ==> LessEq(a, c)
  {
  }

  lemma MaxFacts(a: ExtInt, b: ExtInt)
    ensures LessEq(a, Max(a, b)) && LessEq(b, Max(a, b))
    ensures Max(a, b) == a || Max(a, b) == b
    ensures Less(Max(a, b), a) == false
  {
  }

  lemma MaxAssoc(a: ExtInt, b: ExtInt, c: ExtInt)
    ensures Max(Max(a, b), c) == Max(a, Max(b, c))
  {
  }

  /** What fail-soft alpha-beta promises of a value v searched with window
      (alpha, beta), against the true value V: at or below alpha, v bounds V
      from above; at or above beta, from below; strictly inside, v is V. */
  predicate FailSoft(v: ExtInt, V: ExtInt, alpha: ExtInt, beta: ExtInt) {
    (LessEq(v, alpha) ==> LessEq(V, v)) &&
    (LessEq(beta, v) ==> LessEq(v, V)) &&
    (Less(alpha, v) && Less(v, beta) ==> V == v)
  }

  lemma FailSoftNeg(x: ExtInt, X: ExtInt, alpha: ExtInt, beta: ExtInt)
    requires FailSoft(x, X, Neg(beta), Neg(alpha))
    ensures FailSoft(Neg(x), Neg(X), alpha, beta)
  {
    LessNeg(x, Neg(beta));
    LessNeg(Neg(alpha), x);
    LessNeg(X, x);
    LessNeg(x, X);
    NegNeg(alpha);
    NegNeg(beta);
  }

  lemma {:induction false} PlainNegaScanGrows(g: Grid, n: nat, turnO: bool, depth: int, color: int,
                                              ms: seq<Move>, acc: SearchResult)
    requires IsSquare(g, n) && AllEmptyCells(g, n, ms)
    ensures LessEq(acc.0, PlainNegaScan(g, n, turnO, depth, color, ms, acc).0)
    decreases |ms|
  {
    if ms != [] {
      var e := PlainNegaChildScore(g, n, turnO, depth, color, ms[0]);
      var acc' := if Less(acc.0, e) then (e, Some(ms[0])) else acc;
      PlainNegaScanGrows(g, n, turnO, depth, color, ms[1..], acc');
      LessTrans(acc.0, acc'.0, PlainNegaScan(g, n, turnO, depth, color, ms, acc).0);
    }
  }

  /** negamax with a non-empty window (alpha < beta) against plain negamax:
      the fail-soft bounds hold, and a value strictly inside the window is the
      true value reached by the same move. */
  lemma {:induction false} NegamaxFailSoft(g: Grid, n: nat, turnO: bool, depth: int,
                                           alpha: ExtInt, beta: ExtInt, color: int)
    requires IsSquare(g, n) && Less(alpha, beta)
    ensures var r := Negamax(g, n, turnO, depth, alpha, beta, color);
            var p := PlainNegamax(g, n, turnO, depth, color);
            FailSoft(r.0, p.0, alpha, beta) &&
            (Less(alpha, r.0) && Less(r.0, beta) ==> r.1 == p.1)
    decreases |Moves(g, n)|, 1
  {
    if depth != 0 && Outcome(g, n).None? {
      MovesAllEmpty(g, n);
      MaxFacts(alpha, NegInf);
      NegaScanFailSoft(g, n, turnO, depth, color, Moves(g, n), alpha, alpha, beta,
                       NegInf, None, (NegInf, None));
    }
  }

  /** What the negamax loop keeps true between two moves: alpha is the larger
      of the entry alpha and the best score; the plain search over the same
      moves so far has a value no better than best, and once best has risen
      above the entry alpha, the plain search agrees with it, move included. */
  predicate ScanInvariant(alpha0: ExtInt, alpha: ExtInt, beta: ExtInt,
                          best: ExtInt, bestMove: Option<Move>, acc: SearchResult) {
    alpha == Max(alpha0, best) && Less(alpha, beta) && LessEq(acc.0, best) &&
    (Less(alpha0, best) ==> acc == (best, bestMove))
  }

  /** One turn of the loop, with e the child's score under the current window
      and E its true score. */
  lemma ScanStep(alpha0: ExtInt, alpha: ExtInt, beta: ExtInt, best: ExtInt, bestMove: Option<Move>,
                 acc: SearchResult, m: Move, e: ExtInt, E: ExtInt)
    requires ScanInvariant(alpha0, alpha, beta, best, bestMove, acc) && FailSoft(e, E, alpha, beta)
    ensures var improved := Less(best, e);
            var best' := if improved then e else best;
            var bestMove' := if improved then Some(m) else bestMove;
            var alpha' := Max(alpha, e);
            var acc' := if Less(acc.0, E) then (E, Some(m)) else acc;
            if LessEq(beta, alpha') then best' == e && LessEq(beta, e) && LessEq(e, acc'.0) && Less(alpha0, e)
            else ScanInvariant(alpha0, alpha', beta, best', bestMove', acc')
  {
    var improved := Less(best, e);
    var best' := if improved then e else best;
    var alpha' := Max(alpha, e);
    var acc' := if Less(acc.0, E) then (E, Some(m)) else acc;
    MaxFacts(alpha0, best);
    MaxFacts(alpha, e);
    MaxFacts(best, e);
    LessTrans(best, alpha, beta);
    if LessEq(beta, alpha') {
      LessTrans(best, beta, e);
      LessTrans(alpha0, alpha, beta);
      LessTrans(alpha0, beta, e);
      LessTrans(e, E, acc'.0);
    } else {
      MaxAssoc(alpha0, best, e);
      LessTrans(e, alpha', beta);
      LessTrans(E, e, best');
      LessTrans(acc.0, best, best');
      if improved {
        LessTrans(alpha0, best, e);
        LessTrans(acc.0, best, e);
      } else {
        LessTrans(E, e, best);
      }
    }
  }

  lemma ScanEnd(alpha0: ExtInt, alpha: ExtInt, beta: ExtInt, best: ExtInt, bestMove: Option<Move>,
                acc: SearchResult)
    requires ScanInvariant(alpha0, alpha, beta, best, bestMove, acc)
    ensures FailSoft(best, acc.0, alpha0, beta)
    ensures Less(alpha0, best) && Less(best, beta) ==> bestMove == acc.1
  {
    MaxFacts(alpha0, best);
    LessTrans(best, alpha, beta);
  }

  lemma {:induction false} NegaScanFailSoft(g: Grid, n: nat, turnO: bool, depth: int, color: int,
                                            ms: seq<Move>, alpha0: ExtInt, alpha: ExtInt, beta: ExtInt,
                                            best: ExtInt, bestMove: Option<Move>, acc: SearchResult)
    requires IsSquare(g, n) && AllEmptyCells(g, n, ms)
    requires ScanInvariant(alpha0, alpha, beta, best, bestMove, acc)
    ensures var r := NegaScan(g, n, turnO, depth, color, ms, alpha, beta, best, bestMove);
            var p := PlainNegaScan(g, n, turnO, depth, color, ms, acc);
            FailSoft(r.0, p.0, alpha0, beta) &&
            (Less(alpha0, r.0) && Less(r.0, beta) ==> r.1 == p.1)
    decreases |Moves(g, n)|, 0, |ms|
  {
    if ms == [] {
      ScanEnd(alpha0, alpha, beta, best, bestMove, acc);
    } else {
      var m := ms[0];
      NegaChildFailSoft(g, n, turnO, depth, color, m, alpha, beta);
      var e := NegaChildScore(g, n, turnO, depth, color, m, alpha, beta);
      var E := PlainNegaChildScore(g, n, turnO, depth, color, m);
      ScanStep(alpha0, alpha, beta, best, bestMove, acc, m, e, E);
      var improved := Less(best, e);
      var best' := if improved then e else best;
      var bestMove' := if improved then Some(m) else bestMove;
      var alpha' := Max(alpha, e);
      var acc' := if Less(acc.0, E) then (E, Some(m)) else acc;
      var rest := PlainNegaScan(g, n, turnO, depth, color, ms[1..], acc');
      assert PlainNegaScan(g, n, turnO, depth, color, ms, acc) == rest;
      if LessEq(beta, alpha') {
        assert NegaScan(g, n, turnO, depth, color, ms, alpha, beta, best, bestMove) == (e, bestMove');
        PlainNegaScanGrows(g, n, turnO, depth, color, ms[1..], acc');
        LessTrans(e, acc'.0, rest.0);
        LessTrans(beta, e, rest.0);
      } else {
        assert NegaScan(g, n, turnO, depth, color, ms, alpha, beta, best, bestMove) ==
               NegaScan(g, n, turnO, depth, color, ms[1..], alpha', beta, best', bestMove');
        NegaScanFailSoft(g, n, turnO, depth, color, ms[1..], alpha0, alpha', beta, best', bestMove', acc');
      }
    }
  }

  /** The score of one move searched with a non-empty window against its
      plain score: the fail-soft bounds hold. */
  lemma {:induction false} NegaChildFailSoft(g: Grid, n: nat, turnO: bool, depth: int, color: int, m: Move,
                                             alpha: ExtInt, beta: ExtInt)
    requires IsSquare(g, n) && IsEmptyCell(g, n, m) && Less(alpha, beta)
    ensures FailSoft(NegaChildScore(g, n, turnO, depth, color, m, alpha, beta),
                     PlainNegaChildScore(g, n, turnO, depth, color, m), alpha, beta)
    decreases |Moves(g, n)|, 0, 0
  {
    var child := Apply(g, n, m, turnO);
    FewerMovesAfter(g, n, m, turnO);
    LessNeg(alpha, beta);
    NegamaxFailSoft(child, n, !turnO, depth - 1, Neg(beta), Neg(alpha), -color);
    FailSoftNeg(Negamax(child, n, !turnO, depth - 1, Neg(beta), Neg(alpha), -color).0,
                PlainNegamax(child, n, !turnO, depth - 1, -color).0, alpha, beta);
  }

  // ---------------------------------------------------------------------
  // With the full window (-inf, +inf), pruning changes nothing

  /** Plain negamax is plain minimax seen from the side to move. */
  lemma {:induction false} PlainNegamaxIsPlainMinimax(g: Grid, n: nat, turnO: bool, depth: int, color: int)
    requires IsSquare(g, n) && (color == 1 || color == -1)
    ensures PlainNegamax(g, n, turnO, depth, color) ==
              var r := PlainMinimax(g, n, turnO, depth, color == 1);
              (Orient(color, r.0), r.1)
    decreases |Moves(g, n)|, 1
  {
    if depth != 0 && Outcome(g, n).None? {
      MovesAllEmpty(g, n);
      PlainNegaScanIsPlainScan(g, n, turnO, depth, color, Moves(g, n), (NegInf, None));
    }
  }

  lemma {:induction false} PlainNegaChildIsChild(g: Grid, n: nat, turnO: bool, depth: int, color: int, m: Move)
    requires IsSquare(g, n) && IsEmptyCell(g, n, m) && (color == 1 || color == -1)
    ensures PlainNegaChildScore(g, n, turnO, depth, color, m) ==
            Orient(color, PlainChildScore(g, n, turnO, depth, color == 1, m))
    decreases |Moves(g, n)|, 0, 0
  {
    var child := Apply(g, n, m, turnO);
    FewerMovesAfter(g, n, m, turnO);
    PlainNegamaxIsPlainMinimax(child, n, !turnO, depth - 1, -color);
    NegNeg(PlainMinimax(child, n, !turnO, depth - 1, color != 1).0);
  }

  lemma {:induction false} PlainNegaScanIsPlainScan(g: Grid, n: nat, turnO: bool, depth: int, color: int,
                                                    ms: seq<Move>, acc: SearchResult)
    requires IsSquare(g, n) && AllEmptyCells(g, n, ms) && (color == 1 || color == -1)
    ensures PlainNegaScan(g, n, turnO, depth, color, ms, acc) ==
              var r := PlainScan(g, n, turnO, depth, color == 1, ms, (Orient(color, acc.0), acc.1));
              (Orient(color, r.0), r.1)
    decreases |Moves(g, n)|, 0, |ms|
  {
    NegNeg(acc.0);
    if ms != [] {
      PlainNegaChildIsChild(g, n, turnO, depth, color, ms[0]);
      var v := PlainChildScore(g, n, turnO, depth, color == 1, ms[0]);
      var e := PlainNegaChildScore(g, n, turnO, depth, color, ms[0]);
      NegNeg(v);
      LessNeg(acc.0, v);
      var acc' := if Less(acc.0, e) then (e, Some(ms[0])) else acc;
      PlainNegaScanIsPlainScan(g, n, turnO, depth, color, ms[1..], acc');
    }
  }

  /** negamax started with the full window returns the plain negamax result,
      score and move. */
  lemma NegamaxFullWindow(g: Grid, n: nat, turnO: bool, depth: int, color: int)
    requires IsSquare(g, n) && (color == 1 || color == -1)
    ensures Negamax(g, n, turnO, depth, NegInf, PosInf, color) == PlainNegamax(g, n, turnO, depth, color)
  {
    NegamaxIsMinimax(g, n, turnO, depth, NegInf, PosInf, color);
    MinimaxResultLegal(g, n, turnO, depth, color == 1,
                       WindowLo(color, NegInf, PosInf), WindowHi(color, NegInf, PosInf));
    NegamaxFailSoft(g, n, turnO, depth, NegInf, PosInf, color);
  }

  /** minimax started with the full window (-inf, +inf), as the source's
      defaults start it, returns the score and the move of plain depth-limited
      minimax over the same tree. */
  lemma MinimaxFullWindow(g: Grid, n: nat, turnO: bool, depth: int, maximizing: bool)
    requires IsSquare(g, n)
    ensures Minimax(g, n, turnO, depth, maximizing, NegInf, PosInf) == PlainMinimax(g, n, turnO, depth, maximizing)
  {
    var color := if maximizing then 1 else -1;
    NegamaxIsMinimax(g, n, turnO, depth, NegInf, PosInf, color);
    NegamaxFullWindow(g, n, turnO, depth, color);
    PlainNegamaxIsPlainMinimax(g, n, turnO, depth, color);
    var r := Minimax(g, n, turnO, depth, maximizing, NegInf, PosInf);
    var p := PlainMinimax(g, n, turnO, depth, maximizing);
    NegNeg(r.0);
    NegNeg(p.0);
  }

  // ---------------------------------------------------------------------
  // Ties: the first move reaching the best value is kept

  /** x is strictly better than y for the side that maximises (or minimises). */
  predicate Better(maximizing: bool, x: ExtInt, y: ExtInt) {
    if maximizing then Less(y, x) else Less(x, y)
  }

  lemma PlainMinimaxScore(g: Grid, n: nat, turnO: bool, depth: int, maximizing: bool)
    requires IsSquare(g, n)
    ensures InScoreRange(PlainMinimax(g, n, turnO, depth, maximizing).0)
  {
    MinimaxFullWindow(g, n, turnO, depth, maximizing);
    MinimaxResultLegal(g, n, turnO, depth, maximizing, NegInf, PosInf);
  }

  lemma PlainChildScoreFinite(g: Grid, n: nat, turnO: bool, depth: int, maximizing: bool, m: Move)
    requires IsSquare(g, n) && IsEmptyCell(g, n, m)
    ensures InScoreRange(PlainChildScore(g, n, turnO, depth, maximizing, m))
  {
    PlainMinimaxScore(Apply(g, n, m, turnO), n, !turnO, depth - 1, !maximizing);
  }

  /** The plain values of the moves of a list, in order. */
  function ChildValues(g: Grid, n: nat, turnO: bool, depth: int, maximizing: bool, all: seq<Move>): (vals: seq<ExtInt>)
    requires IsSquare(g, n) && AllEmptyCells(g, n, all)
    ensures |vals| == |all|
    ensures forall i :: 0 <= i < |all| ==> vals[i] == PlainChildScore(g, n, turnO, depth, maximizing, all[i])
  {
    seq(|all|, i requires 0 <= i < |all| => PlainChildScore(g, n, turnO, depth, maximizing, all[i]))
  }

  /** v is vals[j]; the values before j are strictly worse, those from j+1 to k-1 no better. */
  predicate FirstBestUpTo(maximizing: bool, vals: seq<ExtInt>, j: nat, k: nat, v: ExtInt)
    requires j < k <= |vals|
  {
    v == vals[j] &&
    (forall i :: 0 <= i < j ==> Better(maximizing, v, vals[i])) &&
    (forall i :: j < i < k ==> !Better(maximizing, vals[i], v))
  }

  lemma FirstBestStep(maximizing: bool, vals: seq<ExtInt>, j: nat, k: nat, v: ExtInt)
    requires j < k < |vals| && FirstBestUpTo(maximizing, vals, j, k, v)
    ensures Better(maximizing, vals[k], v) ==> FirstBestUpTo(maximizing, vals, k, k + 1, vals[k])
    ensures !Better(maximizing, vals[k], v) ==> FirstBestUpTo(maximizing, vals, j, k + 1, v)
  {
    if Better(maximizing, vals[k], v) {
      forall i | 0 <= i < k ensures Better(maximizing, vals[k], vals[i]) {
        LessTrans(vals[i], v, vals[k]);
        LessTrans(vals[k], v, vals[i]);
      }
    }
  }

  lemma {:induction false} PlainScanFirstBest(g: Grid, n: nat, turnO: bool, depth: int, maximizing: bool,
                                              all: seq<Move>, k: nat, acc: SearchResult, j: nat)
    returns (j': nat)
    requires IsSquare(g, n) && AllEmptyCells(g, n, all) && k <= |all|
    requires acc.1.None? ==> k == 0 && acc.0 == if maximizing then NegInf else PosInf
    requires acc.1.Some? ==> j < k && acc.1 == Some(all[j]) &&
                             FirstBestUpTo(maximizing, ChildValues(g, n, turnO, depth, maximizing, all), j, k, acc.0)
    requires acc.1.Some? || |all| > 0
    ensures j' < |all|
    ensures PlainScan(g, n, turnO, depth, maximizing, all[k..], acc).1 == Some(all[j'])
    ensures FirstBestUpTo(maximizing, ChildValues(g, n, turnO, depth, maximizing, all), j', |all|,
                          PlainScan(g, n, turnO, depth, maximizing, all[k..], acc).0)
    decreases |all| - k
  {
    var vals := ChildValues(g, n, turnO, depth, maximizing, all);
    if k == |all| {
      assert all[k..] == [];
      return j;
    }
    var m := all[k];
    assert all[k..][0] == m && all[k..][1..] == all[k + 1..];
    var e := vals[k];
    PlainChildScoreFinite(g, n, turnO, depth, maximizing, m);
    var improved := Better(maximizing, e, acc.0);
    var acc' := if improved then (e, Some(m)) else acc;
    assert PlainScan(g, n, turnO, depth, maximizing, all[k..], acc) ==
           PlainScan(g, n, turnO, depth, maximizing, all[k + 1..], acc');
    if acc.1.Some? {
      FirstBestStep(maximizing, vals, j, k, acc.0);
    }
    j' := PlainScanFirstBest(g, n, turnO, depth, maximizing, all, k + 1, acc', if improved then k else j);
  }

  /** Strict tie-breaking: at a node that is not a leaf, plain minimax returns
      the first move, in get_moves order, whose value is the best one: every
      earlier move is strictly worse and no later move is better. With the
      full window minimax returns the same (MinimaxFullWindow). */
  lemma PlainMinimaxFirstBest(g: Grid, n: nat, turnO: bool, depth: int, maximizing: bool)
    returns (j: nat)
    requires IsSquare(g, n) && depth != 0 && Outcome(g, n).None?
    ensures AllEmptyCells(g, n, Moves(g, n)) && j < |Moves(g, n)|
    ensures PlainMinimax(g, n, turnO, depth, maximizing).1 == Some(Moves(g, n)[j])
    ensures PlainMinimax(g, n, turnO, depth, maximizing).0 ==
              PlainChildScore(g, n, turnO, depth, maximizing, Moves(g, n)[j])
    ensures forall i :: 0 <= i < j ==>
              Better(maximizing, PlainMinimax(g, n, turnO, depth, maximizing).0,
                     PlainChildScore(g, n, turnO, depth, maximizing, Moves(g, n)[i]))
    ensures forall i :: j < i < |Moves(g, n)| ==>
              !Better(maximizing, PlainChildScore(g, n, turnO, depth, maximizing, Moves(g, n)[i]),
                      PlainMinimax(g, n, turnO, depth, maximizing).0)
  {
    MovesAllEmpty(g, n);
    NotOverHasMoves(g, n);
    var all := Moves(g, n);
    assert all[0..] == all;
    j := PlainScanFirstBest(g, n, turnO, depth, maximizing, all, 0,
                            (if maximizing then NegInf else PosInf, None), 0);
  }
}

=== FILE: search_spec.dfy ===
/** The search engine as pure functions over grids: depth-limited minimax and
    negamax with fail-soft alpha-beta pruning, exactly as the loops of the
    source run them, and the plain (unpruned) game values they are measured
    against. Scores and the window bounds live in ExtInt, the integers
    extended with -inf and +inf. */
module SearchSpec {
  import opened Rules
  import opened BoardFacts

  datatype ExtInt = NegInf | Fin(v: int) | PosInf

  /** x < y in the extended order. */
  predicate Less(x: ExtInt, y: ExtInt) {
    if x.NegInf? then !y.NegInf?
    else if x.Fin? then y.PosInf? || (y.Fin? && x.v < y.v)
    else false
  }

  predicate LessEq(x: ExtInt, y: ExtInt) {
    !Less(y, x)
  }

  function Neg(x: ExtInt): ExtInt {
    match x
    case NegInf => PosInf
    case Fin(a) => Fin(-a)
    case PosInf => NegInf
  }

  /** Python's max(a, b): b only when it is strictly larger. */
  function Max(a: ExtInt, b: ExtInt): ExtInt {
    if Less(a, b) then b else a
  }

  /** Python's min(a, b): b only when it is strictly smaller. */
  function Min(a: ExtInt, b: ExtInt): ExtInt {
    if Less(b, a) then b else a
  }

  /** A search result: the score and the chosen move (None at a leaf). */
  type SearchResult = (ExtInt, Option<Move>)

  /** A list of legal moves of g: each one an empty cell. */
  predicate AllEmptyCells(g: Grid, n: nat, ms: seq<Move>)
    requires IsSquare(g, n)
  {
    forall i :: 0 <= i < |ms| ==> IsEmptyCell(g, n, ms[i])
  }

  /** The list get_moves returns is such a list. */
  lemma MovesAllEmpty(g: Grid, n: nat)
    requires IsSquare(g, n)
    ensures AllEmptyCells(g, n, Moves(g, n))
  {
    MovesAreEmptyCells(g, n);
    forall i | 0 <= i < |Moves(g, n)| ensures IsEmptyCell(g, n, Moves(g, n)[i]) {
      assert Moves(g, n)[i] in Moves(g, n);
    }
  }

  // ---------------------------------------------------------------------
  // minimax(state, depth, maximizingPlayer, alpha, beta)

  /** The search tree is finite: every child has one empty cell fewer, so the
      number of empty cells bounds the recursion whatever the depth. */
  function Minimax(g: Grid, n: nat, turnO: bool, depth: int, maximizing: bool,
                   alpha: ExtInt, beta: ExtInt): (r: SearchResult)
    requires IsSquare(g, n)
    ensures r.1.Some? ==> r.1.value in Moves(g, n)
    decreases |Moves(g, n)|, 1
  {
    var outcome := Outcome(g, n);
    if depth == 0 || outcome.Some? then (Fin(Score(outcome)), None)
    else
      MovesAllEmpty(g, n);
      Scan(g, n, turnO, depth, maximizing, Moves(g, n), alpha, beta,
           if maximizing then NegInf else PosInf, None)
  }

  /** The score of playing m, for the side that is maximising (or not): the
      child is searched one level deeper by the other side, same window. */
  function ChildScore(g: Grid, n: nat, turnO: bool, depth: int, maximizing: bool, m: Move,
                      alpha: ExtInt, beta: ExtInt): ExtInt
    requires IsSquare(g, n) && IsEmptyCell(g, n, m)
    decreases |Moves(g, n)|, 0, 0
  {
    FewerMovesAfter(g, n, m, turnO);
    Minimax(Apply(g, n, m, turnO), n, !turnO, depth - 1, !maximizing, alpha, beta).0
  }

  /** The loop of minimax over the moves still to examine, with the running
      window, the best score so far and the move that first reached it. */
  function Scan(g: Grid, n: nat, turnO: bool, depth: int, maximizing: bool, ms: seq<Move>,
                alpha: ExtInt, beta: ExtInt, best: ExtInt, bestMove: Option<Move>): (r: SearchResult)
    requires IsSquare(g, n) && AllEmptyCells(g, n, ms)
    ensures r.1 == bestMove || (r.1.Some? && r.1.value in ms)
    decreases |Moves(g, n)|, 0, |ms|
  {
    if ms == [] then (best, bestMove)
    else
      var e := ChildScore(g, n, turnO, depth, maximizing, ms[0], alpha, beta);
      if maximizing then
        var improved := Less(best, e);
        var best' := if improved then e else best;
        var bestMove' := if improved then Some(ms[0]) else bestMove;
        var alpha' := Max(alpha, e);
        if LessEq(beta, alpha') then (best', bestMove')
        else Scan(g, n, turnO, depth, maximizing, ms[1..], alpha', beta, best', bestMove')
      else
        var improved := Less(e, best);
        var best' := if improved then e else best;
        var bestMove' := if improved then Some(ms[0]) else bestMove;
        var beta' := Min(beta, e);
        if LessEq(beta', alpha) then (best', bestMove')
        else Scan(g, n, turnO, depth, maximizing, ms[1..], alpha, beta', best', bestMove')
  }

  // ---------------------------------------------------------------------
  // negamax(state, depth, alpha, beta, color)

  function Negamax(g: Grid, n: nat, turnO: bool, depth: int,
                   alpha: ExtInt, beta: ExtInt, color: int): (r: SearchResult)
    requires IsSquare(g, n)
    ensures r.1.Some? ==> r.1.value in Moves(g, n)
    decreases |Moves(g, n)|, 1
  {
    var outcome := Outcome(g, n);
    if depth == 0 || outcome.Some? then (Fin(color * Score(outcome)), None)
    else
      MovesAllEmpty(g, n);
      NegaScan(g, n, turnO, depth, color, Moves(g, n), alpha, beta, NegInf, None)
  }

  /** The score of playing m as negamax sees it: the child is searched with
      the window negated and swapped and the colour flipped, and its score is
      negated. */
  function NegaChildScore(g: Grid, n: nat, turnO: bool, depth: int, color: int, m: Move,
                          alpha: ExtInt, beta: ExtInt): ExtInt
    requires IsSquare(g, n) && IsEmptyCell(g, n, m)
    decreases |Moves(g, n)|, 0, 0
  {
    FewerMovesAfter(g, n, m, turnO);
    Neg(Negamax(Apply(g, n, m, turnO), n, !turnO, depth - 1, Neg(beta), Neg(alpha), -color).0)
  }

  /** The loop of negamax: the best score and alpha rise until alpha >= beta. */
  function NegaScan(g: Grid, n: nat, turnO: bool, depth: int, color: int, ms: seq<Move>,
                    alpha: ExtInt, beta: ExtInt, best: ExtInt, bestMove: Option<Move>): (r: SearchResult)
    requires IsSquare(g, n) && AllEmptyCells(g, n, ms)
    ensures r.1 == bestMove || (r.1.Some? && r.1.value in ms)
    decreases |Moves(g, n)|, 0, |ms|
  {
    if ms == [] then (best, bestMove)
    else
      var e := NegaChildScore(g, n, turnO, depth, color, ms[0], alpha, beta);
      var improved := Less(best, e);
      var best' := if improved then e else best;
      var bestMove' := if improved then Some(ms[0]) else bestMove;
      var alpha' := Max(alpha, e);
      if LessEq(beta, alpha') then (best', bestMove')
      else NegaScan(g, n, turnO, depth, color, ms[1..], alpha', beta, best', bestMove')
  }

  // ---------------------------------------------------------------------
  // Reference definitions: the same trees searched without pruning

  /** Depth-limited minimax without a window: every move is examined, and the
      first move reaching the best value is kept. */
  function PlainMinimax(g: Grid, n: nat, turnO: bool, depth: int, maximizing: bool): SearchResult
    requires IsSquare(g, n)
    decreases |Moves(g, n)|, 1
  {
    var outcome := Outcome(g, n);
    if depth == 0 || outcome.Some? then (Fin(Score(outcome)), None)
    else
      MovesAllEmpty(g, n);
      PlainScan(g, n, turnO, depth, maximizing, Moves(g, n),
                (if maximizing then NegInf else PosInf, None))
  }

  /** The plain value of playing m: the unpruned search of the child. */
  function PlainChildScore(g: Grid, n: nat, turnO: bool, depth: int, maximizing: bool, m: Move): ExtInt
    requires IsSquare(g, n) && IsEmptyCell(g, n, m)
    decreases |Moves(g, n)|, 0, 0
  {
    FewerMovesAfter(g, n, m, turnO);
    PlainMinimax(Apply(g, n, m, turnO), n, !turnO, depth - 1, !maximizing).0
  }

  function PlainScan(g: Grid, n: nat, turnO: bool, depth: int, maximizing: bool, ms: seq<Move>,
                     acc: SearchResult): SearchResult
    requires IsSquare(g, n) && AllEmptyCells(g, n, ms)
    decreases |Moves(g, n)|, 0, |ms|
  {
    if ms == [] then acc
    else
      var e := PlainChildScore(g, n, turnO, depth, maximizing, ms[0]);
      var improved := if maximizing then Less(acc.0, e) else Less(e, acc.0);
      PlainScan(g, n, turnO, depth, maximizing, ms[1..], if improved then (e, Some(ms[0])) else acc)
  }

  /** Depth-limited negamax without a window. */
  function PlainNegamax(g: Grid, n: nat, turnO: bool, depth: int, color: int): SearchResult
    requires IsSquare(g, n)
    decreases |Moves(g, n)|, 1
  {
    var outcome := Outcome(g, n);
    if depth == 0 || outcome.Some? then (Fin(color * Score(outcome)), None)
    else
      MovesAllEmpty(g, n);
      PlainNegaScan(g, n, turnO, depth, color, Moves(g, n), (NegInf, None))
  }

  /** The plain value of playing m as negamax sees it. */
  function PlainNegaChildScore(g: Grid, n: nat, turnO: bool, depth: int, color: int, m: Move): ExtInt
    requires IsSquare(g, n) && IsEmptyCell(g, n, m)
    decreases |Moves(g, n)|, 0, 0
  {
    FewerMovesAfter(g, n, m, turnO);
    Neg(PlainNegamax(Apply(g, n, m, turnO), n, !turnO, depth - 1, -color).0)
  }

  function PlainNegaScan(g: Grid, n: nat, turnO: bool, depth: int, color: int, ms: seq<Move>,
                         acc: SearchResult): SearchResult
    requires IsSquare(g, n) && AllEmptyCells(g, n, ms)
    decreases |Moves(g, n)|, 0, |ms|
  {
    if ms == [] then acc
    else
      var e := PlainNegaChildScore(g, n, turnO, depth, color, ms[0]);
      PlainNegaScan(g, n, turnO, depth, color, ms[1..], if Less(acc.0, e) then (e, Some(ms[0])) else acc)
  }

  // ---------------------------------------------------------------------
  // One turn of each loop, stated on its own for the methods of SearchEngine

  lemma MaxScanStep(g: Grid, n: nat, turnO: bool, depth: int, ms: seq<Move>, i: nat,
                    alpha: ExtInt, beta: ExtInt, best: ExtInt, bestMove: Option<Move>, e: ExtInt,
                    alpha': ExtInt, best': ExtInt, bestMove': Option<Move>)
    requires IsSquare(g, n) && AllEmptyCells(g, n, ms) && i < |ms|
    requires e == ChildScore(g, n, turnO, depth, true, ms[i], alpha, beta)
    requires best' == (if Less(best, e) then e else best)
    requires bestMove' == (if Less(best, e) then Some(ms[i]) else bestMove)
    requires alpha' == Max(alpha, e)
    ensures AllEmptyCells(g, n, ms[i..]) && AllEmptyCells(g, n, ms[i + 1..])
    ensures LessEq(beta, alpha') ==>
              Scan(g, n, turnO, depth, true, ms[i..], alpha, beta, best, bestMove) == (best', bestMove')
    ensures !LessEq(beta, alpha') ==>
              Scan(g, n, turnO, depth, true, ms[i..], alpha, beta, best, bestMove) ==
              Scan(g, n, turnO, depth, true, ms[i + 1..], alpha', beta, best', bestMove')
  {
    assert ms[i..][0] == ms[i] && ms[i..][1..] == ms[i + 1..];
  }

  lemma MinScanStep(g: Grid, n: nat, turnO: bool, depth: int, ms: seq<Move>, i: nat,
                    alpha: ExtInt, beta: ExtInt, best: ExtInt, bestMove: Option<Move>, e: ExtInt,
                    beta': ExtInt, best': ExtInt, bestMove': Option<Move>)
    requires IsSquare(g, n) && AllEmptyCells(g, n, ms) && i < |ms|
    requires e == ChildScore(g, n, turnO, depth, false, ms[i], alpha, beta)
    requires best' == (if Less(e, best) then e else best)
    requires bestMove' == (if Less(e, best) then Some(ms[i]) else bestMove)
    requires beta' == Min(beta, e)
    ensures AllEmptyCells(g, n, ms[i..]) && AllEmptyCells(g, n, ms[i + 1..])
    ensures LessEq(beta', alpha) ==>
              Scan(g, n, turnO, depth, false, ms[i..], alpha, beta, best, bestMove) == (best', bestMove')
    ensures !LessEq(beta', alpha) ==>
              Scan(g, n, turnO, depth, false, ms[i..], alpha, beta, best, bestMove) ==
              Scan(g, n, turnO, depth, false, ms[i + 1..], alpha, beta', best', bestMove')
  {
    assert ms[i..][0] == ms[i] && ms[i..][1..] == ms[i + 1..];
  }

  lemma NegaScanStep(g: Grid, n: nat, turnO: bool, depth: int, color: int, ms: seq<Move>, i: nat,
                     alpha: ExtInt, beta: ExtInt, best: ExtInt, bestMove: Option<Move>, e: ExtInt,
                     alpha': ExtInt, best': ExtInt, bestMove': Option<Move>)
    requires IsSquare(g, n) && AllEmptyCells(g, n, ms) && i < |ms|
    requires e == NegaChildScore(g, n, turnO, depth, color, ms[i], alpha, beta)
    requires best' == (if Less(best, e) then e else best)
    requires bestMove' == (if Less(best, e) then Some(ms[i]) else bestMove)
    requires alpha' == Max(alpha, e)
    ensures AllEmptyCells(g, n, ms[i..]) && AllEmptyCells(g, n, ms[i + 1..])
    ensures LessEq(beta, alpha') ==>
              NegaScan(g, n, turnO, depth, color, ms[i..], alpha, beta, best, bestMove) == (best', bestMove')
    ensures !LessEq(beta, alpha') ==>
              NegaScan(g, n, turnO, depth, color, ms[i..], alpha, beta, best, bestMove) ==
              NegaScan(g, n, turnO, depth, color, ms[i + 1..], alpha', beta, best', bestMove')
  {
    assert ms[i..][0] == ms[i] && ms[i..][1..] == ms[i + 1..];
  }
}
